=== FILE: README.md ===
# Landing-page composables, modelled in Dafny

This project models the state logic behind the site's Vue composables:

- `useCarousel`: an infinite slider. Its authored slides are flanked by `cloneSets` rounds of clones, and it is driven by buttons, the wheel, drags and transition ends.
- `useActiveSection`: a scroll-spy. It records the visibility ratio of each observed section and picks the most visible one as the active section.
- `useScrollAnimator`: reveal-on-scroll. Options are resolved per element and per pseudo target, and the observer callback consumes the one-shot ones.
- `useContent` and the content schema: a locale's content file is loaded with one fallback to the default locale, validated against a six-variant block schema, and turned into menu items.
- `useNumberToPrice`: a price input is normalised and gated before formatting.

Browser objects are reduced to the data the code reads:

- A DOM element is present or absent (a boolean, or membership in a set of ids).
- An observer batch is a sequence of entries.
- A JavaScript `Map` is the sequence of its entries in insertion order (`JsMap`).
- Style writes are recorded as effects or as a translate value.

Each operation is a pure function from the old state to the new one. Its contract and the lemmas beside it state what the source promises.

Modules:

- `Wrappers`: `Option`.
- `JsArith`: truncating `%` and `Math.round` of a quotient.
- `JsText`: the whitespace class, `trim`, whitespace removal, and `replace` of the first match.
- `JsMap`: the insertion-ordered map.
- `Carousel`, `ActiveSection`, `ScrollAnimator`, `ContentSchema`, `Content`, `Price`: one per source file.

Three behaviours of the code are easy to misread, and the model keeps them as written:

- `normalizeIndex` (src/composables/useCarousel.ts:101-116) jumps only when the index is below `N` or at least `N*(k+1)`. Every index in `[N, N*(k+1))` is left alone, which is more than the middle copy `[N*k, N*(k+1))` (`Carousel.NormalizeIndex`, `Carousel.NormalizeIntoBand`).
- `updateActiveSection` (src/composables/useActiveSection.ts:138-143) replaces its running best only on a strictly greater ratio. A tie therefore goes to the first section in insertion order, and the active section can move to an equally visible earlier one (`ActiveSection.TieGoesToFirstInserted`).
- `handleWheel` (src/composables/useCarousel.ts:182-188) goes to the next slide only when `deltaX > 0 || deltaY > 0`. Every other wheel event goes to the previous slide, including one whose deltas are both zero (`Carousel.HandleWheel`).

## Model

| member | source | states |
|---|---|---|
| JsArith.JsRem | src/composables/useCarousel.ts:24 | JavaScript's `%` for a positive divisor: the remainder is strictly between −n and n, takes the sign of the dividend, and differs from it by a multiple of n |
| JsArith.JsRemNormalised | src/composables/useCarousel.ts:24 | `((i % N) + N) % N` with truncating `%` equals the mathematical residue of i modulo N, for negative i as well |
| JsArith.JsRoundDiv | src/composables/useCarousel.ts:156 | `Math.round(m / w)` for w > 0 is the integer r with 2rw − w ≤ 2m < 2rw + w (halves round up) |
| JsArith.RoundDivUnique | src/composables/useCarousel.ts:156 | only one integer lies in that rounding bracket, so the bracket defines the rounded value |
| JsArith.RoundDivExact | src/composables/useCarousel.ts:156 | a movement of exactly k slide widths rounds to k |
| JsText.RemoveSpaces | src/composables/useNumberToPrice.ts:24 | `replace(/\s+/g, "")` keeps no whitespace, never grows the string, gives "" exactly for an all-whitespace string, and leaves a string without whitespace unchanged |
| JsText.RemoveSpacesConcat | src/composables/useNumberToPrice.ts:24 | whitespace removal distributes over concatenation, so the kept characters stay in order |
| JsText.ReplaceFirst | src/composables/useNumberToPrice.ts:24 | `replace(",", ".")` changes only the first comma; with no comma the string is unchanged; the length is kept |
| JsText.Trim | src/composables/useContent.ts:76 | `trim()` returns a slice of the input with only whitespace cut on either side, and the result neither starts nor ends with whitespace |
| JsText.TrimEmptyIffBlank | src/composables/useContent.ts:76 | `s.trim() !== ""` holds exactly when s has a character outside the whitespace class |
| JsMap.Get | src/composables/useActiveSection.ts:32-35 | `map.get(k)` is absent exactly when k is not a key; otherwise it is the value stored under k |
| JsMap.Set | src/composables/useActiveSection.ts:32 | `map.set(k, v)` rewrites an existing key where it stands and appends a new key at the end |
| JsMap.Delete | src/composables/useActiveSection.ts:35 | `map.delete(k)` removes exactly one entry when k is a key and nothing otherwise |
| JsMap.SetGet | src/composables/useScrollAnimator.ts:293-300 | after `set(k, v)`, keys stay distinct, `get(k)` is v, and every other key reads as before |
| JsMap.DeleteGet | src/composables/useScrollAnimator.ts:245-248 | after `delete(k)`, keys stay distinct, `get(k)` is absent, and every other key reads as before |
| JsMap.DistinctKeySetSize | src/composables/useScrollAnimator.ts:246 | a map's `size` equals the number of its distinct keys |
| Carousel.Init | src/composables/useCarousel.ts:4-18 | a fresh carousel starts at index 0 with translate 0 and no drag in progress |
| Carousel.RealIndex | src/composables/useCarousel.ts:21-25 | `realIndex` is 0 with no slides; otherwise it is in [0, N) and congruent to `currentIndex` modulo N, negative indices included |
| Carousel.RealIndexShift | src/composables/useCarousel.ts:21-25 | adding any multiple of N to `currentIndex` leaves `realIndex` unchanged |
| Carousel.RealIndexUnshift | src/composables/useCarousel.ts:21-25 | subtracting any multiple of N from `currentIndex` leaves `realIndex` unchanged |
| Carousel.RealIndexStep | src/composables/useCarousel.ts:21-25 | moving `currentIndex` by d moves `realIndex` by d modulo N |
| Carousel.SetSliderPosition | src/composables/useCarousel.ts:28-32 | with a track element, `currentTranslate` becomes −`currentIndex` × `slideWidth`; without one nothing changes; nothing else is written |
| Carousel.SetPositionByIndex | src/composables/useCarousel.ts:35-39 | the same positioning with the transition switched on, and nothing without a track |
| Carousel.Gap | src/composables/useCarousel.ts:55 | `parseInt(gap) \|\| 20`: a parsed non-zero gap is used; 0 or an unparsable value gives 20 |
| Carousel.Originals | src/composables/useCarousel.ts:46-48 | the children without the `clone` class: none of them is a clone, and there are no more of them than children |
| Carousel.OriginalsConcat | src/composables/useCarousel.ts:68-70 | filtering out clones distributes over concatenation |
| Carousel.CalculateDimensions | src/composables/useCarousel.ts:42-58 | needs both elements; `totalSlides` is the number of originals; with at least one original, `slideWidth` is the first original's width plus the gap and is positive; with none, the old width stays |
| Carousel.CloneRoundsIs | src/composables/useCarousel.ts:73-93 | k rounds of append-clones and prepend-reversed-clones give k copies of the cloned originals, the originals, then k copies again |
| Carousel.BuildTrack | src/composables/useCarousel.ts:61-93 | the rebuilt track holds 2k+1 slides per authored slide: the originals and k rounds of clones on each side |
| Carousel.BuildTrackLayout | src/composables/useCarousel.ts:61-98 | the rebuilt track has N(2k+1) children; child j shows original j mod N; it is authored inside [Nk, N(k+1)) and a clone everywhere else |
| Carousel.BuildTrackIdempotent | src/composables/useCarousel.ts:64-70 | old clones are removed first, so rebuilding a built track gives the same track, with the same originals |
| Carousel.CreateInfiniteLoop | src/composables/useCarousel.ts:61-98 | with a track and at least one slide, builds the track and starts at index N·k with `realIndex` 0, positioned; otherwise changes nothing |
| Carousel.UpdateCarousel | src/composables/useCarousel.ts:191-196 | measures, then rebuilds only when there are originals; with none only `totalSlides` becomes 0 |
| Carousel.UpdateCarouselIdempotent | src/composables/useCarousel.ts:191-196 | a second resize with the same gap changes nothing more |
| Carousel.NormalizeIndex | src/composables/useCarousel.ts:101-116 | below N it adds N·k; at or above N(k+1) it subtracts N·k; in between, or without a track, nothing changes; `realIndex` is always kept; a jump disables the transition and repositions |
| Carousel.NormalizeIntoBand | src/composables/useCarousel.ts:101-116 | for k ≥ 1, any index on the built track lands in [N, N(k+1)) after one normalisation |
| Carousel.DisplayedSlideIsRealIndex | src/composables/useCarousel.ts:61-98 | on a built track, the child at `currentIndex` shows the original slide numbered `realIndex` |
| Carousel.SlideNext | src/composables/useCarousel.ts:168-172 | ignored while dragging; otherwise the index grows by 1, `realIndex` by 1 modulo N, and the track is repositioned with animation |
| Carousel.SlidePrev | src/composables/useCarousel.ts:175-179 | ignored while dragging; otherwise the index drops by 1, `realIndex` by 1 modulo N, and the track is repositioned with animation |
| Carousel.HandleWheel | src/composables/useCarousel.ts:182-188 | ignored while dragging; a positive horizontal or vertical delta goes next; every other case goes prev |
| Carousel.NextTimesWraps | src/composables/useCarousel.ts:168-172 | N·m presses of next advance the index by N·m and bring `realIndex` back to its start |
| Carousel.NextTimesIndex | src/composables/useCarousel.ts:168-172 | n presses of next outside a drag advance the index by exactly n and keep the slide count |
| Carousel.NextTimes | src/composables/useCarousel.ts:168-172 | repeated presses of next do nothing while a drag is in progress, and never change the slide count or width |
| Carousel.StartDrag | src/composables/useCarousel.ts:119-131 | with a track, starts a session that records the pointer x and `prevTranslate := currentTranslate` and disables the transition; without a track nothing changes |
| Carousel.DragMove | src/composables/useCarousel.ts:134-145 | during a session, the track follows the pointer: `currentTranslate − prevTranslate` equals the pointer's movement; otherwise nothing changes |
| Carousel.EndDrag | src/composables/useCarousel.ts:148-165 | ends the session; the index moves back by the movement in slide widths, rounded as `Math.round` does; the track is repositioned with animation; with no session nothing changes |
| Carousel.DragSession | src/composables/useCarousel.ts:119-165 | press, move and release change the index by −round((x1 − x0) / slideWidth) |
| Carousel.DragOneSlideLeft | src/composables/useCarousel.ts:148-165 | dragging left by one slide width advances one slide, and `realIndex` with it; a press and release without movement keeps the index |
| Carousel.Step | src/composables/useCarousel.ts:199-226 | every listener keeps the carousel steady (the width stays positive, and outside a drag the track sits at its index) and never changes the container, the track or `cloneSets` |
| Carousel.RunSteady | src/composables/useCarousel.ts:199-226 | any sequence of listener calls keeps the carousel steady: the slide width stays positive, and whenever no drag is in progress the track sits exactly at −index × width |
| Carousel.Run | src/composables/useCarousel.ts:199-226 | a sequence of listener calls never changes the container, the track or `cloneSets` |
| ActiveSection.ApplyEntries | src/composables/useActiveSection.ts:27-37 | applying a batch keeps the visibility map's keys distinct |
| ActiveSection.ApplyEntriesGet | src/composables/useActiveSection.ts:27-37 | after a batch, a section's ratio is decided by its last entry in the batch: intersecting writes that ratio, not intersecting removes it; sections without entries keep theirs |
| ActiveSection.Scan | src/composables/useActiveSection.ts:135-143 | the scan's best ratio is non-negative and no ratio exceeds it; a best of 0 comes with the empty id; with no positive ratio the result is (0, "") |
| ActiveSection.ScanIsFirstMax | src/composables/useActiveSection.ts:135-143 | a positive best belongs to the first entry, in insertion order, with the strictly greatest ratio |
| ActiveSection.ScanWinner | src/composables/useActiveSection.ts:135-143 | whenever some entry is the first strict maximum with a positive ratio, the scan returns exactly that entry's ratio and id |
| ActiveSection.FirstMaxUnique | src/composables/useActiveSection.ts:138-143 | at most one entry is that first maximum |
| ActiveSection.UpdateActiveSection | src/composables/useActiveSection.ts:131-149 | only the active section can change; with an empty map or no positive ratio nothing changes; otherwise the first maximum with a non-empty id becomes active, and no other id ever does |
| ActiveSection.TieGoesToFirstInserted | src/composables/useActiveSection.ts:138-148 | when the active section shares the greatest ratio with a section inserted before it, the active section moves to the first maximum, which comes no later than that earlier section |
| ActiveSection.OnIntersection | src/composables/useActiveSection.ts:25-41 | the callback applies the batch, then recomputes: the map stays valid; the new first maximum becomes active whenever its id is non-empty; otherwise the active section is unchanged or that first maximum |
| ActiveSection.RequestObserve | src/composables/useActiveSection.ts:154-162 | the call creates the observer if needed; an id already observed queues nothing; any other id is queued for the next tick |
| ActiveSection.CommitObserve | src/composables/useActiveSection.ts:164-176 | the deferred observe adds the id only if its element exists. The id becomes active exactly when nothing was active and it is now the sole observed id; the active section changes in no other case. After cleanup, a commit whose element exists throws and changes nothing; one whose element is missing returns quietly |
| ActiveSection.Flush | src/composables/useActiveSection.ts:164-176 | running the deferred observes empties the queue and keeps the observer and the visibility map; with an observer, exactly the queued ids whose elements exist join the observed set; without one nothing is observed |
| ActiveSection.CommitIdempotent | src/composables/useActiveSection.ts:164-176 | committing the same id a second time changes nothing more |
| ActiveSection.ObserveTwiceIsOnce | src/composables/useActiveSection.ts:154-176 | observing an id twice before the tick ends in the same state as observing it once |
| ActiveSection.FlushDuplicateLast | src/composables/useActiveSection.ts:164-176 | a duplicated last queued id has no extra effect once the queue is flushed |
| ActiveSection.FlushKeepsActive | src/composables/useActiveSection.ts:172-174 | once a section is active, later deferred observes never change it |
| ActiveSection.UnobserveSection | src/composables/useActiveSection.ts:182-191 | changes nothing unless the observer exists, the id is observed and its element exists; then it drops the id from the observed set and the visibility map and leaves every other ratio alone |
| ActiveSection.AutoObserve | src/composables/useActiveSection.ts:196-214 | queues exactly the requested ids, in document order, after what was already queued; creates the observer when it queues anything; changes nothing else |
| ActiveSection.Unobserved | src/composables/useActiveSection.ts:207-212 | the ids requested are the non-empty ids not yet observed, and no others; an id repeated in the document is requested each time |
| ActiveSection.UnobservedConcat | src/composables/useActiveSection.ts:207-212 | requests follow document order: those of two runs of ids are joined in order |
| ActiveSection.AutoObserveActivatesFirst | src/composables/useActiveSection.ts:164-212 | with nothing observed or active, the first id in document order that is requested becomes active once the ticks run, provided its element exists |
| ActiveSection.ActivateExpected | src/composables/useActiveSection.ts:259-265 | after `waitForSections` resolves, the first expected section becomes active exactly when nothing is active and the list is non-empty; nothing else changes |
| ActiveSection.Reinitialize | src/composables/useActiveSection.ts:110-126 | `forceUpdate` / `reinitializeObserver` empties the observed set and the visibility map, gives a fresh observer, and keeps the active section |
| ActiveSection.Cleanup | src/composables/useActiveSection.ts:333-349 | drops the observer, empties both collections and clears the active section |
| ActiveSection.IsActiveExactlyActive | src/composables/useActiveSection.ts:300-302 | `isActive(id)` holds for exactly one id, the active one; after cleanup it holds for no non-empty id |
| ActiveSection.ScrollTarget | src/composables/useActiveSection.ts:307-321 | no target when the element is absent; otherwise `offsetTop − headerHeight − 20`, with the header height 0 when there is no header |
| ActiveSection.ValidPreserved | src/composables/useActiveSection.ts:154-214 | request, commit, recompute and auto-observe all keep the tracker's invariant |
| ScrollAnimator.ResolutionOrder | src/composables/useScrollAnimator.ts:177-199 | each resolved field is the per-call option if given, else the global one, else the default; a per-call null `pseudo` does not undo a global one; rotation axes are resolved one by one; with no options at all the result is the defaults |
| ScrollAnimator.Resolve | src/composables/useScrollAnimator.ts:266-288 | one `??` level: no options give the fallback unchanged; a given origin or pseudo target wins over the fallback |
| ScrollAnimator.ResolveIdempotent | src/composables/useScrollAnimator.ts:266-288 | resolving the same options a second time changes nothing |
| ScrollAnimator.Create | src/composables/useScrollAnimator.ts:175-207 | a new animator has `base` resolved from the global options, no observer and no element options |
| ScrollAnimator.TranslateShape | src/composables/useScrollAnimator.ts:47-63 | top and bottom translate along Y, left and right along X; top and left use minus the distance, bottom and right plus |
| ScrollAnimator.Translate | src/composables/useScrollAnimator.ts:47-63 | the translate text is `translate…(…)` around the distance, one character longer when the distance is negated |
| ScrollAnimator.HiddenTransformPrefix | src/composables/useScrollAnimator.ts:41-68 | the hidden transform begins with the origin's translate text |
| ScrollAnimator.HiddenTransform | src/composables/useScrollAnimator.ts:41-68 | the hidden transform is the origin's translate text, then ` scale(s) ` with the rendered scale, then the three rotations, with nothing else in between |
| ScrollAnimator.HiddenTransformDeterminesOrigin | src/composables/useScrollAnimator.ts:41-68 | for a fixed distance, scale and rotation, different origins give different transforms |
| ScrollAnimator.ElementKey | src/composables/useScrollAnimator.ts:210-214 | `getElementKey` returns one of "element", "element-before", "element-after" |
| ScrollAnimator.ElementKeyInjective | src/composables/useScrollAnimator.ts:210-214 | each key names its target back, so the three targets have three different keys |
| ScrollAnimator.AtMostThreeEntries | src/composables/useScrollAnimator.ts:290-300 | an element never holds more than three option entries |
| ScrollAnimator.Animate | src/composables/useScrollAnimator.ts:217-314 | a selector with no matches changes nothing; otherwise an observer exists afterwards; `base` never changes |
| ScrollAnimator.Register | src/composables/useScrollAnimator.ts:290-312 | registering an element watches it and never changes `base` or whether an observer exists |
| ScrollAnimator.RegisterSpec | src/composables/useScrollAnimator.ts:290-312 | registering an element validates the state, observes the element, and stores the resolved options under their target's key; the element's other keys and all other elements are unchanged |
| ScrollAnimator.RegisterAll | src/composables/useScrollAnimator.ts:264-313 | registering the matched elements one by one never changes `base` or whether an observer exists |
| ScrollAnimator.RegisterAllSpec | src/composables/useScrollAnimator.ts:264-313 | every matched element ends observed with the call's options under its key; unmatched elements keep their options and observation |
| ScrollAnimator.AnimateSpec | src/composables/useScrollAnimator.ts:217-314 | the same for a whole `animate` call, with the options resolved per call against `base` |
| ScrollAnimator.Visit | src/composables/useScrollAnimator.ts:238-255 | the `forEach` over the live map gives at most one effect per entry, never grows the map, and leaves it alone for an element out of view |
| ScrollAnimator.VisitShown | src/composables/useScrollAnimator.ts:238-250 | for an intersecting element, the `forEach` over the live map reveals every entry and keeps only the `reset` ones; the map is reported empty exactly when nothing is left |
| ScrollAnimator.VisitAway | src/composables/useScrollAnimator.ts:238-255 | for an element out of view, the map is unchanged, only the `reset` entries are hidden, and it is never emptied |
| ScrollAnimator.OnEntryFrame | src/composables/useScrollAnimator.ts:232-256 | one observer entry keeps the animator valid and never touches another element; an element without options is ignored |
| ScrollAnimator.OnEntryAway | src/composables/useScrollAnimator.ts:251-254 | an element leaving the viewport hides its `reset` targets and changes no state |
| ScrollAnimator.OnEntryShown | src/composables/useScrollAnimator.ts:239-250 | an element entering the viewport reveals every target and keeps only the `reset` ones; when none is left it leaves the map and is unobserved |
| ScrollAnimator.OnEntry | src/composables/useScrollAnimator.ts:232-256 | one observer entry never changes `base` or the observer, only ever unwatches elements, and gives at most one effect per stored target |
| ScrollAnimator.OnEntries | src/composables/useScrollAnimator.ts:231-256 | a batch of observer entries never changes `base` or the observer, and only ever unwatches elements |
| ScrollAnimator.Unmount | src/composables/useScrollAnimator.ts:317-321 | unmounting disconnects and drops the observer and clears every element's options |
| ScrollAnimator.ValidPreserved | src/composables/useScrollAnimator.ts:217-314 | `animate` and any batch of observer entries keep the animator valid |
| ContentSchema.BlockTypeDeterminesVariant | src/types/content-schema.ts:119-126 | the `type` literal tells the six block variants apart |
| ContentSchema.MenuName | src/types/content-schema.ts:20-23 | hero and footer blocks have no `menuName` |
| ContentSchema.RequiredString | src/types/content-schema.ts:8 | `z.string()` accepts exactly a present string |
| ContentSchema.OptionalString | src/types/content-schema.ts:12 | `z.string().optional()` accepts an absent key as undefined and a string as itself, and rejects anything else, null included |
| ContentSchema.ParseAll | src/types/content-schema.ts:57 | `z.array` accepts exactly when every element does, and keeps the order |
| ContentSchema.ParseProduct | src/types/content-schema.ts:30-42 | a product is accepted as p exactly when the JSON is an object whose `name`, `image` and `description` are p's strings and whose `price` is p's number |
| ContentSchema.ParseTitleProps | src/types/content-schema.ts:81-113 | title-only props are accepted exactly when they are an object with a string `title`, which is returned |
| ContentSchema.ParseHero | src/types/content-schema.ts:6-23 | hero props are accepted as b exactly when they carry b's `title` and `description` strings and its `anchor` (absent for none) |
| ContentSchema.ParsePopular | src/types/content-schema.ts:49-74 | popular props are accepted as b exactly when they carry b's `title` and `anchor` and a `products` array whose items carry b's products in order |
| ContentSchema.ProductsCarried | src/types/content-schema.ts:57 | an array whose items carry the given products parses to exactly those products |
| ContentSchema.ParseVariant | src/types/content-schema.ts:81-113 | a variant accepts only a block whose type is its own literal |
| ContentSchema.ParseBlock | src/types/content-schema.ts:119-126 | an accepted block is an object whose `type` is the literal of the variant it became |
| ContentSchema.BlockSound | src/types/content-schema.ts:6-126 | a block is accepted as b exactly when its JSON carries b's `type` literal, b's `menuName` (for the variants that declare one) and every declared field of b's props, with b's values |
| ContentSchema.MissingTitleRejected | src/types/content-schema.ts:6-113 | a block whose props lack a string `title` is rejected, whatever its type |
| ContentSchema.HeroWithoutDescriptionRejected | src/types/content-schema.ts:9 | a hero block whose props lack a string `description` is rejected |
| ContentSchema.ParseFile | src/types/content-schema.ts:133-135 | a file is accepted exactly when `blocks` is an array of valid blocks, so one bad block rejects the file; the blocks keep document order |
| ContentSchema.FileSound | src/types/content-schema.ts:133-135 | an accepted file's blocks are the JSON's blocks, in order, each carrying its block's fields |
| ContentSchema.ProductRoundTrip | src/types/content-schema.ts:30-42 | a product's JSON validates back to the product: three strings and a number |
| ContentSchema.ProductsRoundTrip | src/types/content-schema.ts:57 | a list of products encodes to an array that validates back to the same list, in order |
| ContentSchema.HeroRoundTrip | src/types/content-schema.ts:6-13 | hero props with `title`, `description` and an optional `anchor` validate back to the block |
| ContentSchema.PopularRoundTrip | src/types/content-schema.ts:49-74 | popular props with `title`, `products` and an optional `anchor`, plus an optional `menuName`, validate back to the block |
| ContentSchema.BlockRoundTrip | src/types/content-schema.ts:81-126 | every block of every variant validates back to itself |
| ContentSchema.FileRoundTrip | src/types/content-schema.ts:133-135 | every content file validates back to itself |
| ContentSchema.NonStringMenuNameRejected | src/types/content-schema.ts:70 | a present `menuName` that is not a string rejects the block of every variant that declares the field |
| ContentSchema.UndeclaredMenuNameDropped | src/types/content-schema.ts:20-23 | a `menuName` on a hero or footer block is dropped during validation and never reaches the result |
| Content.LoadContent | src/composables/useContent.ts:20-51 | at most two locales are tried: the requested one, then the default; any content returned is the validated file of the last locale tried, and every earlier attempt failed |
| Content.LoadSucceeds | src/composables/useContent.ts:28-41 | a successful import and validation returns the validated data and tries nothing else |
| Content.LoadFallsBack | src/composables/useContent.ts:30-36 | failing a non-default locale, by validation or import, gives exactly what loading the default gives |
| Content.LoadDefaultFails | src/composables/useContent.ts:34-38 | failing the default locale gives null |
| Content.LoadNullIff | src/composables/useContent.ts:20-51 | the result is null exactly when both the locale and the default fail |
| Content.MenuItems | src/composables/useContent.ts:69 | no menu items while no content is loaded |
| Content.MenuOf | src/composables/useContent.ts:70-83 | every menu item comes from a block with a non-blank `menuName`, as that block's type and name |
| Content.MenuOfConcat | src/composables/useContent.ts:70-83 | the menu follows document order: the menu of two runs of blocks is their menus joined |
| Content.MenuOfOne | src/composables/useContent.ts:73-82 | a block gives an item exactly when its `menuName` is present and not all whitespace; the item keeps the untrimmed name; hero and footer give none |
| Content.MenuOfComplete | src/composables/useContent.ts:73-82 | every qualifying block contributes its item |
| Price.Normalize | src/composables/useNumberToPrice.ts:24 | all whitespace is removed, then only the first comma becomes a point and the other characters are unchanged |
| Price.NormalizeToNumber | src/composables/useNumberToPrice.ts:15-30 | null and undefined give null; a number is kept exactly when finite; a string gives the finite value of its normalised form, and null otherwise |
| Price.NumberBypassesParsing | src/composables/useNumberToPrice.ts:21 | a number input is never converted from text |
| Price.TextDependsOnNormalForm | src/composables/useNumberToPrice.ts:24-25 | a string reaches `Number()` only in normalised form |
| Price.NumberToPrice | src/composables/useNumberToPrice.ts:37-43 | an input that does not normalise to a finite number gives "" and never reaches the formatter; a valid one gives the formatted number |
| Price.EmptyPriceIffInvalid | src/composables/useNumberToPrice.ts:37-43 | the empty result does not depend on the formatter, and if the formatter never returns "", the result is "" exactly for invalid inputs |
| Price.BlankTextPricesAsZero | src/composables/useNumberToPrice.ts:24-29 | since `Number("")` is 0, a whitespace-only string is not rejected and prices as zero |

## Left out

- DOM listeners, style and cursor writes, `preventDefault`, and the pseudo-element stylesheet injection (`injectPseudoStylesSafely`) are left out. The carousel records a style write only as its translate value and an `animated` flag.
- `prepareHiddenState`, `reveal` and `reset` write styles. The model records only the `Reveal` and `Hide` effects the observer callback schedules, in order. The style written at `animate` time is not recorded.
- `requestAnimationFrame` is left out: a reveal is recorded as an effect, not deferred.
- The `useActiveSection` MutationObserver is left out. After a 100 ms timeout it calls `reinitializeObserver` (`ActiveSection.Reinitialize`).
- The polling in `waitForSections` is left out. When every expected section exists, it requests each unobserved one (`ActiveSection.RequestObserve`).
- The 500 ms `startAutoObserving` interval and `stopAutoObserving` are left out. The interval repeats `autoObserveSections` (`ActiveSection.AutoObserve`).
- `startAutoObserving` also creates both observers. Once `waitForSections` resolves, it sets the active section to the first expected section when none is active. That direct write is modelled as `ActiveSection.ActivateExpected`, but its ordering against the timers is not.
- The IntersectionObserver thresholds and root margin are left out. The browser computes ratios, so a batch of entries is an input.
- The `_targetElements` check before `observer.observe(el)` is left out. Observing an observed element again has no effect, so `watched` is a set.
- `typeof document === "undefined"`, server-side rendering, is left out.
- The `default:` branch of `getHiddenTransform` is left out: the `Origin` datatype has only four values, so that branch cannot be reached.
- JavaScript number-to-text in template literals is the caller-supplied `show` function.
- `Number()` string conversion is the caller-supplied `parse`. `Intl.NumberFormat("de-DE")` is the caller-supplied `format`.
- The dynamic `import()` of the locale file is the caller-supplied `load`.
- The zod library is replaced by validators written from the declared schema: strip unknown keys, reject null for optional fields, and take union variants in order.
- `console.error` logging is left out.
- `DEFAULT_LOCALE` comes from `src/i18n`, which is not part of this model, so it is a parameter.
- `useI18n`, reactivity (`ref`, `computed`) and the deprecated `getBlocsMenuItems` wrapper are left out.
- `useScrollThreshold` is not part of this model.
- Pointer `clientX` positions and translate values are integers. The wheel deltas and visibility ratios are reals. No floating-point rounding is modelled.
- Carousel.EndDrag: requires a positive slide width during a drag. With a zero width the source divides by zero: the index becomes NaN for no movement and ±Infinity otherwise, and the translate becomes NaN. Before the first measurement the model is not steady; every steady state has a positive width.
- Carousel.Gap: takes the parsed gap as a natural number or none. A negative CSS gap is not a valid value, so it is left out.
- Carousel.Step: the carousel's `onUnmounted` listener removal is not modelled; it changes no state the model keeps.
- ActiveSection.CommitObserve: after cleanup, a commit whose element exists throws (`intersectionObserver!` is null). The model records this as a `threw` flag with no state change. It does not model the exception propagating.

=== FILE: active_section.dfy ===
/** The active-section tracker of `useActiveSection`: a set of observed section ids, the
    visibility ratio of each section currently intersecting the viewport (a JavaScript `Map`, so
    insertion-ordered), and the id of the most visible section.

    The browser's observers become inputs: an intersection batch is a sequence of entries, the
    document is the set of ids that have an element. `observeSection` is split into the request
    (made at call time) and the commit (run on the next render tick), with the requests still
    waiting for their tick kept in `pending`. */
module ActiveSection {
  import opened Wrappers
  import JsMap

  datatype Tracker = Tracker(
    hasObserver: bool,               // the IntersectionObserver exists
    observed: set<string>,           // `observedSections`
    visibility: seq<(string, real)>, // `sectionVisibility`, in insertion order
    active: string,                  // `activeSection`; "" when none
    pending: seq<string>)            // ids whose deferred observe has not run yet

  /** Module load: no observer, nothing observed, no active section. */
  const Initial: Tracker := Tracker(false, {}, [], "", [])

  /** Extra space, in pixels, left between the header and a section scrolled to. */
  const ScrollMargin: int := 20

  /** The structural invariant every operation keeps: distinct visibility keys, and an
      observer exists whenever something is observed. */
  predicate Valid(t: Tracker) {
    JsMap.Distinct(t.visibility) && (t.observed != {} ==> t.hasObserver)
  }

  // ---------------------------------------------------------------- intersection batches

  /** One IntersectionObserver entry: the target's id, whether it intersects, its ratio. */
  datatype Entry = Entry(id: string, isIntersecting: bool, ratio: real)

  /** One entry applied to the visibility map: intersecting sets the ratio, otherwise deletes. */
  function ApplyEntry(vis: seq<(string, real)>, e: Entry): seq<(string, real)> {
    if e.isIntersecting then JsMap.Set(vis, e.id, e.ratio) else JsMap.Delete(vis, e.id)
  }

  /** The `entries.forEach` of the observer callback, in order (written on the last entry). */
  function ApplyEntries(vis: seq<(string, real)>, entries: seq<Entry>): (r: seq<(string, real)>)
    ensures JsMap.Distinct(vis) ==> JsMap.Distinct(r)
    decreases |entries|
  {
    if entries == [] then vis
    else
      var prev := ApplyEntries(vis, entries[..|entries| - 1]);
      var e := entries[|entries| - 1];
      ApplyEntryDistinct(prev, e);
      ApplyEntry(prev, e)
  }

  lemma ApplyEntryDistinct(vis: seq<(string, real)>, e: Entry)
    ensures JsMap.Distinct(vis) ==> JsMap.Distinct(ApplyEntry(vis, e))
  {
    if JsMap.Distinct(vis) {
      JsMap.SetGet(vis, e.id, e.ratio, e.id);
      JsMap.DeleteGet(vis, e.id, e.id);
    }
  }

  /** The last entry of a batch about section `id`, if any. */
  function LastEntry(entries: seq<Entry>, id: string): (r: Option<Entry>)
    ensures r.Some? ==> r.value in entries && r.value.id == id
    decreases |entries|
  {
    if entries == [] then None
    else if entries[|entries| - 1].id == id then Some(entries[|entries| - 1])
    else LastEntry(entries[..|entries| - 1], id)
  }

  /** After a batch, a section's ratio is decided by its last entry: the entry's ratio when it
      intersects, absent when it does not; sections the batch does not mention keep theirs. */
  lemma {:induction false} ApplyEntriesGet(vis: seq<(string, real)>, entries: seq<Entry>, id: string)
    requires JsMap.Distinct(vis)
    ensures JsMap.Get(ApplyEntries(vis, entries), id) ==
      match LastEntry(entries, id)
      case None => JsMap.Get(vis, id)
      case Some(e) => if e.isIntersecting then Some(e.ratio) else None
    decreases |entries|
  {
    if entries != [] {
      var init := entries[..|entries| - 1];
      var e := entries[|entries| - 1];
      var prev := ApplyEntries(vis, init);
      ApplyEntriesGet(vis, init, id);
      JsMap.SetGet(prev, e.id, e.ratio, id);
      JsMap.DeleteGet(prev, e.id, id);
    }
  }

  // ---------------------------------------------------------------- choosing the active section

  /** Entry `i` is the winner of the scan: its ratio is positive and maximal, and every earlier
      entry is strictly below it (the first maximum in insertion order). */
  predicate FirstMaxAt(vis: seq<(string, real)>, i: int) {
    && 0 <= i < |vis|
    && vis[i].1 > 0.0
    && (forall j :: 0 <= j < |vis| ==> vis[j].1 <= vis[i].1)
    && (forall j :: 0 <= j < i ==> vis[j].1 < vis[i].1)
  }

  /** At most one entry wins. */
  lemma FirstMaxUnique(vis: seq<(string, real)>, i: int, j: int)
    requires FirstMaxAt(vis, i) && FirstMaxAt(vis, j)
    ensures i == j
  {
  }

  /** The `forEach` scan of `updateActiveSection`: starting from ratio 0 and id "", an entry
      replaces the running best only when its ratio is strictly greater. */
  function Scan(vis: seq<(string, real)>): (best: (real, string))
    ensures best.0 >= 0.0
    ensures forall j :: 0 <= j < |vis| ==> vis[j].1 <= best.0
    ensures best.0 == 0.0 ==> best.1 == ""
    ensures (forall j :: 0 <= j < |vis| ==> vis[j].1 <= 0.0) ==> best == (0.0, "")
    decreases |vis|
  {
    if vis == [] then (0.0, "")
    else
      var prev := Scan(vis[..|vis| - 1]);
      var last := vis[|vis| - 1];
      assert forall j :: 0 <= j < |vis| - 1 ==> vis[j] == vis[..|vis| - 1][j];
      if last.1 > prev.0 then (last.1, last.0) else prev
  }

  /** The scan ends on the first strict maximum: a positive best ratio is that of a winning
      entry, and the best id is that entry's id. */
  lemma {:induction false} ScanIsFirstMax(vis: seq<(string, real)>)
    ensures Scan(vis).0 > 0.0 ==> exists i :: FirstMaxAt(vis, i) && vis[i] == (Scan(vis).1, Scan(vis).0)
    decreases |vis|
  {
    if vis != [] {
      var init := vis[..|vis| - 1];
      var last := vis[|vis| - 1];
      var prev := Scan(init);
      assert forall j :: 0 <= j < |vis| - 1 ==> vis[j] == init[j];
      if last.1 > prev.0 {
        assert FirstMaxAt(vis, |vis| - 1);
      } else if prev.0 > 0.0 {
        ScanIsFirstMax(init);
        var i :| FirstMaxAt(init, i) && init[i] == (prev.1, prev.0);
        assert FirstMaxAt(vis, i);
      }
    }
  }

  /** The scan's result is the one winner, whenever there is one. */
  lemma ScanWinner(vis: seq<(string, real)>)
    ensures forall i :: FirstMaxAt(vis, i) ==> Scan(vis) == (vis[i].1, vis[i].0)
  {
    var best := Scan(vis);
    ScanIsFirstMax(vis);
    forall i | FirstMaxAt(vis, i) ensures best == (vis[i].1, vis[i].0) {
      assert best.0 > 0.0;
      var w :| FirstMaxAt(vis, w) && vis[w] == (best.1, best.0);
      FirstMaxUnique(vis, i, w);
    }
  }

  /** `updateActiveSection`: with no visibility entries nothing happens; otherwise the active
      section becomes the scan's winner, if there is one with a non-empty id. It is never
      cleared: when no ratio is positive it stays as it was. */
  function UpdateActiveSection(t: Tracker): (r: Tracker)
    ensures r.(active := t.active) == t
    ensures (forall j :: 0 <= j < |t.visibility| ==> t.visibility[j].1 <= 0.0) ==> r == t
    ensures forall i :: FirstMaxAt(t.visibility, i) && t.visibility[i].0 != "" ==>
      r.active == t.visibility[i].0
    ensures r.active == t.active || exists i :: FirstMaxAt(t.visibility, i) && r.active == t.visibility[i].0
  {
    if |t.visibility| == 0 then t
    else
      var best := Scan(t.visibility);
      ScanWinner(t.visibility);
      ScanIsFirstMax(t.visibility);
      if best.1 != "" && best.1 != t.active then t.(active := best.1) else t
  }

  /** Ties go to the first entry in insertion order, even against the current active section:
      when the active section shares the greatest ratio with a section inserted before it, the
      active section moves to an earlier one. */
  lemma TieGoesToFirstInserted(t: Tracker, i: int, j: int)
    requires JsMap.Distinct(t.visibility) && 0 <= i < j < |t.visibility|
    requires t.visibility[i].1 == t.visibility[j].1 > 0.0
    requires forall k :: 0 <= k < |t.visibility| ==> t.visibility[k].1 <= t.visibility[i].1
    requires forall k :: 0 <= k < |t.visibility| ==> t.visibility[k].0 != ""
    requires t.active == t.visibility[j].0
    ensures UpdateActiveSection(t).active != t.active
    ensures exists m :: 0 <= m <= i && FirstMaxAt(t.visibility, m) && UpdateActiveSection(t).active == t.visibility[m].0
  {
    var vis := t.visibility;
    var m := 0;
    while vis[m].1 != vis[i].1
      invariant 0 <= m <= i
      invariant forall k :: 0 <= k < m ==> vis[k].1 != vis[i].1
      decreases i - m
    {
      m := m + 1;
    }
    assert FirstMaxAt(vis, m);
    assert vis[m].0 != vis[j].0;
  }

  /** The intersection callback: apply the batch, then choose the active section. */
  function OnIntersection(t: Tracker, entries: seq<Entry>): (r: Tracker)
    requires Valid(t)
    ensures Valid(r)
    ensures r.visibility == ApplyEntries(t.visibility, entries)
    ensures r.(active := t.active, visibility := t.visibility) == t
    ensures r.active == t.active || exists i :: FirstMaxAt(r.visibility, i) && r.active == r.visibility[i].0
    ensures forall i :: FirstMaxAt(r.visibility, i) && r.visibility[i].0 != "" ==> r.active == r.visibility[i].0
  {
    UpdateActiveSection(t.(visibility := ApplyEntries(t.visibility, entries)))
  }

  // ---------------------------------------------------------------- observe / unobserve

  /** `observeSection(id)` at call time: creates the observer if missing; an id already observed
      is ignored, any other id waits for the next tick. */
  function RequestObserve(t: Tracker, id: string): (r: Tracker)
    ensures r.hasObserver && r.observed == t.observed && r.active == t.active
    ensures r.visibility == t.visibility
    ensures id in t.observed ==> r.pending == t.pending
    ensures id !in t.observed ==> r.pending == t.pending + [id]
  {
    var t1 := t.(hasObserver := true);
    if id in t.observed then t1 else t1.(pending := t.pending + [id])
  }

  /** The outcome of a deferred observe: the new state, and whether the callback threw (it
      dereferences the observer, which `cleanup` may have cleared since the request). */
  datatype Commit = Commit(tracker: Tracker, threw: bool)

  /** The next-tick half of `observeSection` for the oldest pending id: if the element exists the
      id is observed, and if it is now the only observed id while nothing is active it becomes
      active. A missing element changes nothing. */
  function CommitObserve(t: Tracker, present: set<string>): (r: Commit)
    requires t.pending != []
    ensures r.tracker.pending == t.pending[1..]
    ensures r.tracker.visibility == t.visibility && r.tracker.hasObserver == t.hasObserver
    ensures t.pending[0] !in present || r.threw ==> r.tracker.observed == t.observed && r.tracker.active == t.active
    ensures r.threw <==> t.pending[0] in present && !t.hasObserver
    ensures t.pending[0] in present && t.hasObserver ==> r.tracker.observed == t.observed + {t.pending[0]}
    ensures r.tracker.active != t.active ==>
      r.tracker.active == t.pending[0] && t.active == "" && r.tracker.observed == {t.pending[0]}
    ensures t.pending[0] in present && t.hasObserver && t.active == "" && t.observed <= {t.pending[0]} ==>
      r.tracker.active == t.pending[0]
  {
    var id, t1 := t.pending[0], t.(pending := t.pending[1..]);
    if id !in present then Commit(t1, false)
    else if !t.hasObserver then Commit(t1, true)
    else
      var obs := t.observed + {id};
      var active := if |obs| == 1 && t.active == "" then id else t.active;
      SingletonSet(obs, id);
      assert t.observed <= {id} ==> obs == {id};
      Commit(t1.(observed := obs, active := active), false)
  }

  lemma SingletonSet(s: set<string>, x: string)
    ensures |s| == 1 && x in s ==> s == {x}
  {
    if |s| == 1 && x in s {
      assert |s - {x}| == 0;
      assert s - {x} == {};
    }
  }

  /** Every pending observe committed in order, the last tick's outcome ignored. */
  function Flush(t: Tracker, present: set<string>): (r: Tracker)
    ensures r.pending == []
    ensures r.hasObserver == t.hasObserver && r.visibility == t.visibility
    ensures t.hasObserver ==> r.observed == t.observed + (set x | x in t.pending && x in present)
    ensures !t.hasObserver ==> r.observed == t.observed
    decreases |t.pending|
  {
    if t.pending == [] then t else Flush(CommitObserve(t, present).tracker, present)
  }

  /** Committing the same id twice is committing it once. */
  lemma CommitIdempotent(t: Tracker, present: set<string>, rest: seq<string>)
    requires t.pending != []
    ensures var once := CommitObserve(t.(pending := [t.pending[0]] + rest), present).tracker;
      CommitObserve(once.(pending := [t.pending[0]] + rest), present).tracker == once
  {
  }

  /** `observeSection` is idempotent: calling it twice in a row and letting the ticks run gives
      the same state as calling it once. */
  lemma ObserveTwiceIsOnce(t: Tracker, id: string, present: set<string>)
    ensures Flush(RequestObserve(RequestObserve(t, id), id), present) == Flush(RequestObserve(t, id), present)
  {
    var t1 := RequestObserve(t, id);
    if id !in t.observed {
      assert RequestObserve(t1, id).pending == t.pending + [id, id];
      FlushDuplicateLast(t1.(pending := t.pending), t.pending, id, present);
      assert t1.(pending := t.pending).(pending := t.pending + [id]) == t1;
    }
  }

  /** Flushing `p + [id, id]` ends where flushing `p + [id]` does. */
  lemma {:induction false} FlushDuplicateLast(t: Tracker, p: seq<string>, id: string, present: set<string>)
    ensures Flush(t.(pending := p + [id, id]), present) == Flush(t.(pending := p + [id]), present)
    decreases |p|
  {
    var a, b := t.(pending := p + [id, id]), t.(pending := p + [id]);
    if p == [] {
      var once := CommitObserve(b, present).tracker;
      CommitIdempotent(b, present, [id]);
      assert CommitObserve(a, present).tracker == once.(pending := [id]);
      assert Flush(once.(pending := [id]), present) == Flush(CommitObserve(once.(pending := [id]), present).tracker, present);
    } else {
      var ca := CommitObserve(a, present).tracker;
      var cb := CommitObserve(b, present).tracker;
      assert a.pending[1..] == p[1..] + [id, id];
      assert b.pending[1..] == p[1..] + [id];
      assert cb == ca.(pending := p[1..] + [id]);
      FlushDuplicateLast(ca, p[1..], id, present);
      assert ca.(pending := p[1..] + [id, id]) == ca;
    }
  }

  /** Once a section is active, further commits never change it. */
  lemma {:induction false} FlushKeepsActive(t: Tracker, present: set<string>)
    requires t.active != ""
    ensures Flush(t, present).active == t.active
    decreases |t.pending|
  {
    if t.pending != [] {
      FlushKeepsActive(CommitObserve(t, present).tracker, present);
    }
  }

  /** Document order decides the first active section: when nothing is observed or active, the
      first id `autoObserveSections` requests becomes active, provided its element exists. */
  lemma AutoObserveActivatesFirst(t: Tracker, ids: seq<string>, present: set<string>)
    requires t.hasObserver && t.observed == {} && t.active == "" && t.pending == []
    requires Unobserved(ids, {}) != [] && Unobserved(ids, {})[0] in present
    ensures Flush(AutoObserve(t, ids), present).active == Unobserved(ids, {})[0]
  {
    var q := AutoObserve(t, ids);
    var first := CommitObserve(q, present).tracker;
    assert first.active == q.pending[0];
    FlushKeepsActive(first, present);
  }

  /** `unobserveSection(id)`: only an observed id whose element exists (and only while the
      observer exists) is dropped, from both the observed set and the visibility map. */
  function UnobserveSection(t: Tracker, id: string, present: set<string>): (r: Tracker)
    requires Valid(t)
    ensures Valid(r)
    ensures !t.hasObserver || id !in t.observed || id !in present ==> r == t
    ensures t.hasObserver && id in t.observed && id in present ==>
      && r.observed == t.observed - {id}
      && JsMap.Get(r.visibility, id) == None
      && (forall k :: k != id ==> JsMap.Get(r.visibility, k) == JsMap.Get(t.visibility, k))
      && r.(observed := t.observed, visibility := t.visibility) == t
  {
    if !t.hasObserver || id !in t.observed then t
    else if id in present then
      forall k ensures JsMap.Distinct(JsMap.Delete(t.visibility, id))
        && JsMap.Get(JsMap.Delete(t.visibility, id), id) == None
        && (k != id ==> JsMap.Get(JsMap.Delete(t.visibility, id), k) == JsMap.Get(t.visibility, k))
      {
        JsMap.DeleteGet(t.visibility, id, k);
      }
      t.(observed := t.observed - {id}, visibility := JsMap.Delete(t.visibility, id))
    else t
  }

  /** `autoObserveSections` given the ids found in `main`, in document order: every non-empty id
      not yet observed is requested. */
  function AutoObserve(t: Tracker, ids: seq<string>): (r: Tracker)
    ensures r.observed == t.observed && r.active == t.active && r.visibility == t.visibility
    ensures r.pending == t.pending + Unobserved(ids, t.observed)
    ensures r.hasObserver <==> t.hasObserver || Unobserved(ids, t.observed) != []
    decreases |ids|
  {
    if ids == [] then t
    else
      var t1 := if ids[0] != "" && ids[0] !in t.observed then RequestObserve(t, ids[0]) else t;
      var r := AutoObserve(t1, ids[1..]);
      assert t1.pending == t.pending + Unobserved(ids[..1], t.observed);
      UnobservedConcat(ids[..1], ids[1..], t.observed);
      assert ids[..1] + ids[1..] == ids;
      r
  }

  /** The ids `autoObserveSections` requests, in document order: the non-empty ones not yet
      observed. An id repeated in the document is requested each time, since the observed set
      only grows on the next tick. */
  function Unobserved(ids: seq<string>, observed: set<string>): (r: seq<string>)
    ensures |r| <= |ids|
    ensures forall x :: x in r <==> x in ids && x != "" && x !in observed
    decreases |ids|
  {
    if ids == [] then []
    else
      var rest := Unobserved(ids[1..], observed);
      assert forall x :: x in ids <==> x == ids[0] || x in ids[1..];
      if ids[0] != "" && ids[0] !in observed then [ids[0]] + rest else rest
  }

  /** The requests follow the document: those of two runs of ids are joined in order. */
  lemma {:induction false} UnobservedConcat(a: seq<string>, b: seq<string>, observed: set<string>)
    ensures Unobserved(a + b, observed) == Unobserved(a, observed) + Unobserved(b, observed)
    decreases |a|
  {
    if a == [] {
      assert a + b == b;
    } else {
      assert (a + b)[1..] == a[1..] + b;
      UnobservedConcat(a[1..], b, observed);
    }
  }

  // ---------------------------------------------------------------- lifecycle

  /** `reinitializeObserver` / `forceUpdate`: a fresh observer, nothing observed, no ratios, the
      active section kept (the re-scan of `main` follows on the next tick, see `AutoObserve`). */
  function Reinitialize(t: Tracker): (r: Tracker)
    ensures Valid(r) && r.hasObserver
    ensures r.observed == {} && r.visibility == []
    ensures r.active == t.active && r.pending == t.pending
  {
    t.(hasObserver := true, observed := {}, visibility := [])
  }

  /** `cleanup`: no observer, nothing observed, no ratios, no active section. Deferred observes
      already scheduled are not cancelled. */
  function Cleanup(t: Tracker): (r: Tracker)
    ensures Valid(r) && !r.hasObserver
    ensures r.observed == {} && r.visibility == [] && r.active == ""
    ensures r.pending == t.pending
  {
    t.(hasObserver := false, observed := {}, visibility := [], active := "")
  }

  /** The continuation `startAutoObserving` runs once `waitForSections(expected)` resolves: the
      first expected section becomes active when nothing is, whether or not it is observed. */
  function ActivateExpected(t: Tracker, expected: seq<string>): (r: Tracker)
    ensures r.(active := t.active) == t
    ensures t.active == "" && expected != [] ==> r.active == expected[0]
    ensures t.active != "" || expected == [] ==> r == t
    ensures Valid(t) ==> Valid(r)
  {
    if t.active == "" && |expected| > 0 then t.(active := expected[0]) else t
  }

  /** `isActive(id)`. */
  function IsActive(t: Tracker, id: string): bool {
    t.active == id
  }

  /** At most one section is active, and after `cleanup` no named section is. */
  lemma IsActiveExactlyActive(t: Tracker, a: string, b: string)
    ensures IsActive(t, a) && IsActive(t, b) ==> a == b
    ensures IsActive(t, t.active)
    ensures a != "" ==> !IsActive(Cleanup(t), a)
  {
  }

  /** `scrollToSection(id)`: the scroll target for a section at `offsetTops[id]`, leaving room for
      the header (height 0 when there is no header) and a 20-pixel margin; nothing when the
      section has no element. */
  function ScrollTarget(offsetTops: map<string, int>, headerHeight: Option<nat>, id: string): (r: Option<int>)
    ensures id !in offsetTops <==> r.None?
    ensures r.Some? ==> r.value + headerHeight.GetOr(0) + ScrollMargin == offsetTops[id]
    ensures r.Some? && headerHeight.None? ==> r.value == offsetTops[id] - ScrollMargin
  {
    if id in offsetTops then Some(offsetTops[id] - headerHeight.GetOr(0) - ScrollMargin) else None
  }

  /** Every operation keeps the tracker valid. */
  lemma ValidPreserved(t: Tracker, id: string, present: set<string>, ids: seq<string>)
    requires Valid(t)
    ensures Valid(RequestObserve(t, id))
    ensures t.pending != [] ==> Valid(CommitObserve(t, present).tracker)
    ensures Valid(UpdateActiveSection(t))
    ensures Valid(AutoObserve(t, ids))
  {
  }
}

=== FILE: carousel.dfy ===
/** The infinite carousel engine of `useCarousel`: a track of authored slides extended on both
    sides by `cloneSets` copies, an index into that extended track, a drag session that turns
    pointer movement into whole-slide steps, and a silent jump back towards the middle whenever
    an animated move ends near an edge.

    DOM elements become values: the container (`carouselRef`) and the track (`wrapperRef`) are
    present or absent, the track's children are a sequence of `Slide`s, pixel lengths and pointer
    positions are integers. */
module Carousel {
  import opened Wrappers
  import opened JsArith

  /** A child of the track element: which authored slide it shows (`key`), its `offsetWidth`, and
      whether it carries the `clone` class. */
  datatype Slide = Slide(key: int, width: nat, clone: bool)

  datatype Carousel = Carousel(
    hasContainer: bool,      // `carouselRef` is mounted
    hasTrack: bool,          // `wrapperRef` is mounted
    children: seq<Slide>,    // the track's children, in document order
    cloneSets: nat,          // copies of the authored slides on each side
    totalSlides: nat,        // authored (non-clone) slides found by the last measurement
    slideWidth: int,         // first authored slide's width plus the gap
    currentIndex: int,       // position in the extended track
    animated: bool,          // the track's transition is "transform 0.3s ease-out" (else "none")
    isDragging: bool,
    startX: int,
    prevTranslate: int,
    currentTranslate: int)

  /** Gap used when the computed `gap` style parses to 0 or to nothing. */
  const DefaultGap: int := 20

  /** `cloneSets` when the caller gives none. */
  const DefaultCloneSets: nat := 3

  /** The state right after `useCarousel(cloneSets)` runs: nothing measured, nothing dragged. */
  function Init(hasContainer: bool, hasTrack: bool, children: seq<Slide>, cloneSets: nat): (c: Carousel)
    ensures c.currentIndex == 0 && c.currentTranslate == 0 && !c.isDragging
  {
    Carousel(hasContainer, hasTrack, children, cloneSets, 0, 0, 0, false, false, 0, 0, 0)
  }

  // ---------------------------------------------------------------- index arithmetic

  /** `realIndex`: which authored slide the current position shows. It is 0 without slides and
      otherwise the position reduced modulo the slide count into [0, N), negative positions
      included, although it is computed with JavaScript's truncating `%`. */
  function RealIndex(c: Carousel): (r: nat)
    ensures c.totalSlides == 0 ==> r == 0
    ensures c.totalSlides > 0 ==> r < c.totalSlides && r == c.currentIndex % c.totalSlides
  {
    var n := c.totalSlides;
    if n == 0 then 0
    else
      JsRemNormalised(c.currentIndex, n);
      JsRem(JsRem(c.currentIndex, n) + n, n)
  }

  /** Moving by a whole number of slide sequences shows the same authored slide. */
  lemma RealIndexShift(c: Carousel, m: int)
    ensures RealIndex(c.(currentIndex := c.currentIndex + c.totalSlides * m)) == RealIndex(c)
  {
    if c.totalSlides > 0 {
      ModAddMultiple(c.currentIndex, c.totalSlides, m);
    }
  }

  /** Moving back by a whole number of slide sequences shows the same authored slide. */
  lemma RealIndexUnshift(c: Carousel, m: int)
    ensures RealIndex(c.(currentIndex := c.currentIndex - c.totalSlides * m)) == RealIndex(c)
  {
    if c.totalSlides > 0 {
      assert c.totalSlides * -m == -(c.totalSlides * m);
      ModAddMultiple(c.currentIndex, c.totalSlides, -m);
    }
  }

  /** A step of `d` positions moves `realIndex` by `d` around the circle of N slides. */
  lemma RealIndexStep(c: Carousel, d: int)
    ensures c.totalSlides > 0 ==>
      RealIndex(c.(currentIndex := c.currentIndex + d)) == (RealIndex(c) + d) % c.totalSlides
  {
    var n := c.totalSlides;
    if n > 0 {
      var q := c.currentIndex / n;
      assert c.currentIndex + d == (RealIndex(c) + d) + n * q;
      ModAddMultiple(RealIndex(c) + d, n, q);
    }
  }

  /** The track's translation matches the index: `translateX(-currentIndex * slideWidth px)`. */
  predicate Positioned(c: Carousel) {
    c.currentTranslate == c.currentIndex * -c.slideWidth
  }

  /** `setSliderPosition`: moves the track to the current index (no-op without a track). */
  function SetSliderPosition(c: Carousel): (r: Carousel)
    ensures r.hasTrack ==> Positioned(r)
    ensures !r.hasTrack ==> r == c
    ensures r.currentIndex == c.currentIndex && RealIndex(r) == RealIndex(c)
    ensures r.(currentTranslate := c.currentTranslate) == c
  {
    if !c.hasTrack then c else c.(currentTranslate := c.currentIndex * -c.slideWidth)
  }

  /** `setPositionByIndex`: the same move, with the transition switched on. */
  function SetPositionByIndex(c: Carousel): (r: Carousel)
    ensures r.hasTrack ==> Positioned(r) && r.animated
    ensures !r.hasTrack ==> r == c
    ensures r.(currentTranslate := c.currentTranslate, animated := c.animated) == c
  {
    if !c.hasTrack then c else SetSliderPosition(c.(animated := true))
  }

  // ---------------------------------------------------------------- measurement

  /** `parseInt(getComputedStyle(track).gap) || 20`. The parse is None when it yields NaN; a
      computed CSS gap is never negative. */
  function Gap(parsed: Option<nat>): (g: int)
    ensures g > 0
    ensures parsed.Some? && parsed.value != 0 ==> g == parsed.value
    ensures parsed.None? || parsed.value == 0 ==> g == DefaultGap
  {
    match parsed
    case Some(v) => if v != 0 then v else DefaultGap
    case None => DefaultGap
  }

  /** The track's children without the `clone` class, in document order. */
  function Originals(children: seq<Slide>): (o: seq<Slide>)
    ensures |o| <= |children|
    ensures forall i :: 0 <= i < |o| ==> !o[i].clone
  {
    if children == [] then []
    else if children[0].clone then Originals(children[1..])
    else [children[0]] + Originals(children[1..])
  }

  /** The authored slides of a concatenation are those of each part, in order. */
  lemma {:induction false} OriginalsConcat(a: seq<Slide>, b: seq<Slide>)
    ensures Originals(a + b) == Originals(a) + Originals(b)
  {
    if a == [] {
      assert a + b == b;
    } else {
      assert (a + b)[1..] == a[1..] + b;
      OriginalsConcat(a[1..], b);
    }
  }

  /** A sequence of authored slides is its own set of originals. */
  lemma {:induction false} OriginalsOfOriginals(s: seq<Slide>)
    requires forall i :: 0 <= i < |s| ==> !s[i].clone
    ensures Originals(s) == s
  {
    if s != [] {
      OriginalsOfOriginals(s[1..]);
    }
  }

  /** Only clones: nothing is authored. */
  lemma {:induction false} OriginalsOfClones(s: seq<Slide>)
    requires forall i :: 0 <= i < |s| ==> s[i].clone
    ensures Originals(s) == []
  {
    if s != [] {
      OriginalsOfClones(s[1..]);
    }
  }

  /** `calculateDimensions`: counts the authored slides and, when there is one, sets the slide
      width to the first one's width plus the gap. Without container or track nothing changes;
      without authored slides only the count (0) is written. */
  function CalculateDimensions(c: Carousel, gap: Option<nat>): (r: Carousel)
    ensures !c.hasContainer || !c.hasTrack ==> r == c
    ensures c.hasContainer && c.hasTrack ==> r.totalSlides == |Originals(c.children)|
    ensures c.hasContainer && c.hasTrack && r.totalSlides > 0 ==>
      r.slideWidth == Originals(c.children)[0].width + Gap(gap) && r.slideWidth > 0
    ensures r.totalSlides == 0 ==> r.slideWidth == c.slideWidth
    ensures r.(totalSlides := c.totalSlides, slideWidth := c.slideWidth) == c
  {
    if !c.hasContainer || !c.hasTrack then c
    else
      var o := Originals(c.children);
      if |o| == 0 then c.(totalSlides := 0)
      else c.(totalSlides := |o|, slideWidth := o[0].width + Gap(gap))
  }

  // ---------------------------------------------------------------- the extended track

  /** `cloneNode(true)` plus `classList.add("clone")`. */
  function Clone(s: Slide): Slide {
    s.(clone := true)
  }

  /** Each slide of `s` cloned, in the same order. */
  function Clones(s: seq<Slide>): (r: seq<Slide>)
    ensures |r| == |s|
    ensures forall i :: 0 <= i < |s| ==> r[i] == Clone(s[i])
  {
    seq(|s|, i requires 0 <= i < |s| => Clone(s[i]))
  }

  function Reverse<T>(s: seq<T>): (r: seq<T>)
    ensures |r| == |s|
  {
    if s == [] then [] else Reverse(s[1..]) + [s[0]]
  }

  /** `slides.forEach(s => track.appendChild(clone(s)))`. */
  function AppendClones(track: seq<Slide>, slides: seq<Slide>): seq<Slide>
    decreases |slides|
  {
    if slides == [] then track else AppendClones(track + [Clone(slides[0])], slides[1..])
  }

  /** `xs.forEach(s => track.insertBefore(clone(s), track.firstChild))`. */
  function PrependClones(track: seq<Slide>, xs: seq<Slide>): seq<Slide>
    decreases |xs|
  {
    if xs == [] then track else PrependClones([Clone(xs[0])] + track, xs[1..])
  }

  /** The body of the `for (i < cloneSets)` loop run `rounds` times: append clones of the
      slides, then insert clones of the reversed slides at the front. */
  function CloneRounds(track: seq<Slide>, slides: seq<Slide>, rounds: nat): seq<Slide>
    decreases rounds
  {
    if rounds == 0 then track
    else CloneRounds(PrependClones(AppendClones(track, slides), Reverse(slides)), slides, rounds - 1)
  }

  /** The track `createInfiniteLoop` builds: old clones removed, then `cloneSets` rounds. */
  function BuildTrack(children: seq<Slide>, cloneSets: nat): (r: seq<Slide>)
    ensures |r| == |Originals(children)| * (2 * cloneSets + 1)
  {
    CloneRoundsIs(Originals(children), Originals(children), cloneSets);
    CloneRounds(Originals(children), Originals(children), cloneSets)
  }

  /** `s` repeated `n` times. */
  function Repeat(s: seq<Slide>, n: nat): (r: seq<Slide>)
    ensures |r| == |s| * n
  {
    if n == 0 then [] else s + Repeat(s, n - 1)
  }

  lemma {:induction false} AppendClonesIs(track: seq<Slide>, slides: seq<Slide>)
    ensures AppendClones(track, slides) == track + Clones(slides)
    decreases |slides|
  {
    if slides != [] {
      AppendClonesIs(track + [Clone(slides[0])], slides[1..]);
      assert Clones(slides) == [Clone(slides[0])] + Clones(slides[1..]);
    }
  }

  lemma {:induction false} PrependClonesIs(track: seq<Slide>, xs: seq<Slide>)
    ensures PrependClones(track, xs) == Clones(Reverse(xs)) + track
    decreases |xs|
  {
    if xs != [] {
      PrependClonesIs([Clone(xs[0])] + track, xs[1..]);
      assert Clones(Reverse(xs)) == Clones(Reverse(xs[1..])) + [Clone(xs[0])];
    }
  }

  lemma {:induction false} ReverseReverse<T>(s: seq<T>)
    ensures Reverse(Reverse(s)) == s
  {
    if s != [] {
      ReverseConcat(Reverse(s[1..]), [s[0]]);
      ReverseReverse(s[1..]);
      assert Reverse([s[0]]) == [s[0]];
      assert s == [s[0]] + s[1..];
    }
  }

  lemma {:induction false} ReverseConcat<T>(a: seq<T>, b: seq<T>)
    ensures Reverse(a + b) == Reverse(b) + Reverse(a)
  {
    if a == [] {
      assert a + b == b;
    } else {
      assert (a + b)[1..] == a[1..] + b;
      ReverseConcat(a[1..], b);
    }
  }

  lemma {:induction false} RepeatSnoc(s: seq<Slide>, n: nat)
    ensures Repeat(s, n) + s == s + Repeat(s, n)
  {
    if n > 0 {
      RepeatSnoc(s, n - 1);
    }
  }

  /** One round of the loop wraps the track in one copy of clones on each side; `n` rounds
      wrap it in `n` copies. */
  lemma {:induction false} CloneRoundsIs(track: seq<Slide>, slides: seq<Slide>, n: nat)
    ensures CloneRounds(track, slides, n) == Repeat(Clones(slides), n) + track + Repeat(Clones(slides), n)
    decreases n
  {
    if n > 0 {
      var c := Clones(slides);
      var rep := Repeat(c, n - 1);
      AppendClonesIs(track, slides);
      PrependClonesIs(track + c, Reverse(slides));
      ReverseReverse(slides);
      assert PrependClones(AppendClones(track, slides), Reverse(slides)) == c + track + c;
      CloneRoundsIs(c + track + c, slides, n - 1);
      RepeatSnoc(c, n - 1);
      assert rep + (c + track + c) + rep == (rep + c) + track + (c + rep);
    }
  }

  lemma {:induction false} RepeatClones(s: seq<Slide>, n: nat)
    ensures forall i :: 0 <= i < |Repeat(Clones(s), n)| ==> Repeat(Clones(s), n)[i].clone
  {
    if n > 0 {
      RepeatClones(s, n - 1);
    }
  }

  /** Element `j` of a repetition is element `j mod |s|` of `s`. */
  lemma {:induction false} RepeatAt(s: seq<Slide>, n: nat, j: int)
    requires |s| > 0 && 0 <= j < |s| * n
    ensures Repeat(s, n)[j] == s[j % |s|]
  {
    if j >= |s| {
      RepeatAt(s, n - 1, j - |s|);
      ModAddMultiple(j - |s|, |s|, 1);
    } else {
      ModUnique(j, |s|, 0, j);
    }
  }

  /** The layout of the extended track built from `N > 0` authored slides: length `N*(2k+1)`,
      child `j` shows authored slide `j mod N`, and exactly the middle band [N*k, N*(k+1)) is
      authored, everything else being clones. */
  lemma BuildTrackLayout(children: seq<Slide>, k: nat)
    requires |Originals(children)| > 0
    ensures var o, t := Originals(children), BuildTrack(children, k);
      && |t| == |o| * (2 * k + 1)
      && forall j :: 0 <= j < |t| ==>
           t[j] == (if |o| * k <= j < |o| * (k + 1) then o[j % |o|] else Clone(o[j % |o|]))
  {
    var o := Originals(children);
    var n := |o|;
    var c := Clones(o);
    var rep := Repeat(c, k);
    var t := BuildTrack(children, k);
    CloneRoundsIs(o, o, k);
    assert t == rep + o + rep;
    assert n * (2 * k + 1) == n * k + n + n * k;
    forall j | 0 <= j < |t|
      ensures t[j] == (if n * k <= j < n * (k + 1) then o[j % n] else Clone(o[j % n]))
    {
      LayoutAt(o, k, j);
    }
  }

  /** One child of `clones + o + clones` with `k` rounds of clones on each side. */
  lemma LayoutAt(o: seq<Slide>, k: nat, j: int)
    requires |o| > 0 && 0 <= j < |o| * k + |o| + |o| * k
    ensures var rep := Repeat(Clones(o), k);
      (rep + o + rep)[j] == (if |o| * k <= j < |o| * (k + 1) then o[j % |o|] else Clone(o[j % |o|]))
  {
    var n := |o|;
    var c := Clones(o);
    var rep := Repeat(c, k);
    assert |rep| == n * k;
    assert n * (k + 1) == n * k + n;
    if j < n * k {
      RepeatAt(c, k, j);
      assert (rep + o + rep)[j] == rep[j];
    } else if j < n * k + n {
      ModAddMultiple(j - n * k, n, k);
      ModUnique(j - n * k, n, 0, j - n * k);
      assert (rep + o + rep)[j] == o[j - n * k];
    } else {
      RepeatAt(c, k, j - n * k - n);
      ModAddMultiple(j - n * k - n, n, k + 1);
      assert (rep + o + rep)[j] == rep[j - n * k - n];
    }
  }

  /** Rebuilding removes the clones first, so building on a built track rebuilds it unchanged. */
  lemma BuildTrackIdempotent(children: seq<Slide>, k: nat)
    ensures Originals(BuildTrack(children, k)) == Originals(children)
    ensures BuildTrack(BuildTrack(children, k), k) == BuildTrack(children, k)
  {
    var o := Originals(children);
    var rep := Repeat(Clones(o), k);
    CloneRoundsIs(o, o, k);
    RepeatClones(o, k);
    OriginalsOfClones(rep);
    OriginalsOfOriginals(o);
    OriginalsConcat(rep, o);
    assert Originals(rep + o) == o;
    OriginalsConcat(rep + o, rep);
    assert Originals(rep + o + rep) == o + [];
  }

  /** `createInfiniteLoop`: with a track and a non-zero slide count, replaces the children by
      the extended track, moves to the first authored slide (`N*k`) and positions the track. */
  function CreateInfiniteLoop(c: Carousel): (r: Carousel)
    ensures !c.hasTrack || c.totalSlides == 0 ==> r == c
    ensures c.hasTrack && c.totalSlides > 0 ==>
      && r.children == BuildTrack(c.children, c.cloneSets)
      && r.currentIndex == c.totalSlides * c.cloneSets
      && RealIndex(r) == 0
      && Positioned(r)
      && r.(children := c.children, currentIndex := c.currentIndex, currentTranslate := c.currentTranslate) == c
  {
    if !c.hasTrack || c.totalSlides == 0 then c
    else
      var r := SetSliderPosition(c.(children := BuildTrack(c.children, c.cloneSets),
                                    currentIndex := c.totalSlides * c.cloneSets));
      RealIndexShift(r.(currentIndex := 0), c.cloneSets);
      r
  }

  /** `updateCarousel`: measure, then rebuild when there are slides. */
  function UpdateCarousel(c: Carousel, gap: Option<nat>): (r: Carousel)
    ensures c.hasContainer && c.hasTrack && |Originals(c.children)| > 0 ==>
      && r.children == BuildTrack(c.children, c.cloneSets)
      && r.totalSlides == |Originals(c.children)|
      && r.slideWidth == Originals(c.children)[0].width + Gap(gap)
      && r.currentIndex == r.totalSlides * c.cloneSets && RealIndex(r) == 0
      && Positioned(r)
    ensures c.hasContainer && c.hasTrack && |Originals(c.children)| == 0 ==>
      r == c.(totalSlides := 0)
  {
    var d := CalculateDimensions(c, gap);
    if d.totalSlides > 0 then CreateInfiniteLoop(d) else d
  }

  /** Updating twice with the same layout is updating once. */
  lemma UpdateCarouselIdempotent(c: Carousel, gap: Option<nat>)
    ensures UpdateCarousel(UpdateCarousel(c, gap), gap) == UpdateCarousel(c, gap)
  {
    BuildTrackIdempotent(c.children, c.cloneSets);
  }

  // ---------------------------------------------------------------- boundary normalisation

  /** `normalizeIndex`, run when a transition ends: below N it jumps forward by `N*k`, at or past
      `N*(k+1)` it jumps back by `N*k`, both without animation; otherwise nothing changes. The
      authored slide shown is never changed. */
  function NormalizeIndex(c: Carousel): (r: Carousel)
    ensures RealIndex(r) == RealIndex(c)
    ensures !c.hasTrack || c.totalSlides <= c.currentIndex < c.totalSlides * (c.cloneSets + 1) ==> r == c
    ensures c.hasTrack && c.currentIndex < c.totalSlides ==>
      r.currentIndex == c.currentIndex + c.totalSlides * c.cloneSets && !r.animated && Positioned(r)
    ensures c.hasTrack && c.totalSlides <= c.currentIndex && c.currentIndex >= c.totalSlides * (c.cloneSets + 1) ==>
      r.currentIndex == c.currentIndex - c.totalSlides * c.cloneSets && !r.animated && Positioned(r)
    ensures r.(currentIndex := c.currentIndex, animated := c.animated, currentTranslate := c.currentTranslate) == c
  {
    var n, k := c.totalSlides, c.cloneSets;
    if !c.hasTrack then c
    else if c.currentIndex < n then
      RealIndexShift(c, k);
      SetSliderPosition(c.(currentIndex := c.currentIndex + n * k, animated := false))
    else if c.currentIndex >= n * (k + 1) then
      RealIndexUnshift(c, k);
      SetSliderPosition(c.(currentIndex := c.currentIndex - n * k, animated := false))
    else c
  }

  /** With at least one clone set, any position on the extended track is normalised into
      [N, N*(k+1)): the authored band and the clone set just before it. */
  lemma NormalizeIntoBand(c: Carousel)
    requires c.hasTrack && c.totalSlides > 0 && c.cloneSets >= 1
    requires 0 <= c.currentIndex < c.totalSlides * (2 * c.cloneSets + 1)
    ensures var r := NormalizeIndex(c);
      c.totalSlides <= r.currentIndex < c.totalSlides * (c.cloneSets + 1)
  {
    var n, k := c.totalSlides, c.cloneSets;
    assert n * (k + 1) == n * k + n;
    assert n * (2 * k + 1) == n * k + n * (k + 1);
    assert n * k >= n by { assert n * k == n * (k - 1) + n; assert n * (k - 1) >= 0; }
  }

  /** On a built track, the child at the current index shows authored slide `realIndex`. */
  lemma DisplayedSlideIsRealIndex(c: Carousel, authored: seq<Slide>)
    requires |Originals(authored)| > 0
    requires c.children == BuildTrack(authored, c.cloneSets)
    requires c.totalSlides == |Originals(authored)|
    requires 0 <= c.currentIndex < |c.children|
    ensures c.children[c.currentIndex].key == Originals(authored)[RealIndex(c)].key
  {
    BuildTrackLayout(authored, c.cloneSets);
  }

  // ---------------------------------------------------------------- buttons and wheel

  /** `slideNext`: one step forward, animated; ignored while dragging. */
  function SlideNext(c: Carousel): (r: Carousel)
    ensures c.isDragging ==> r == c
    ensures !c.isDragging ==> r.currentIndex == c.currentIndex + 1
    ensures !c.isDragging && c.totalSlides > 0 ==> RealIndex(r) == (RealIndex(c) + 1) % c.totalSlides
    ensures r.hasTrack && !c.isDragging ==> Positioned(r) && r.animated
  {
    if c.isDragging then c
    else
      RealIndexStep(c, 1);
      SetPositionByIndex(c.(currentIndex := c.currentIndex + 1))
  }

  /** `slidePrev`: one step back, animated; ignored while dragging. */
  function SlidePrev(c: Carousel): (r: Carousel)
    ensures c.isDragging ==> r == c
    ensures !c.isDragging ==> r.currentIndex == c.currentIndex - 1
    ensures !c.isDragging && c.totalSlides > 0 ==>
      RealIndex(r) == (RealIndex(c) - 1) % c.totalSlides
    ensures r.hasTrack && !c.isDragging ==> Positioned(r) && r.animated
  {
    if c.isDragging then c
    else
      RealIndexStep(c, -1);
      SetPositionByIndex(c.(currentIndex := c.currentIndex - 1))
  }

  /** `handleWheel`: ignored while dragging; a positive horizontal or vertical delta goes
      forward, every other wheel event (both deltas zero included) goes back. */
  function HandleWheel(c: Carousel, deltaX: real, deltaY: real): (r: Carousel)
    ensures c.isDragging ==> r == c
    ensures !c.isDragging && (deltaX > 0.0 || deltaY > 0.0) ==> r == SlideNext(c)
    ensures !c.isDragging && deltaX <= 0.0 && deltaY <= 0.0 ==> r == SlidePrev(c)
  {
    if c.isDragging then c
    else if deltaX > 0.0 || deltaY > 0.0 then SlideNext(c)
    else SlidePrev(c)
  }

  /** `n` presses of "next" in a row. */
  function NextTimes(c: Carousel, n: nat): (r: Carousel)
    ensures c.isDragging ==> r == c
    ensures r.totalSlides == c.totalSlides && r.slideWidth == c.slideWidth
    decreases n
  {
    if n == 0 then c else NextTimes(SlideNext(c), n - 1)
  }

  /** Going forward through a whole number of slide sequences returns to the same authored
      slide; in particular `N*k` presses from the mounted position. */
  lemma {:induction false} NextTimesWraps(c: Carousel, m: nat)
    requires !c.isDragging
    ensures NextTimes(c, c.totalSlides * m).currentIndex == c.currentIndex + c.totalSlides * m
    ensures RealIndex(NextTimes(c, c.totalSlides * m)) == RealIndex(c)
  {
    NextTimesIndex(c, c.totalSlides * m);
    var r := NextTimes(c, c.totalSlides * m);
    RealIndexShift(c, m);
    assert r.totalSlides == c.totalSlides;
    assert RealIndex(r) == RealIndex(c.(currentIndex := c.currentIndex + c.totalSlides * m)) by {
      assert r.currentIndex == c.currentIndex + c.totalSlides * m;
    }
  }

  lemma {:induction false} NextTimesIndex(c: Carousel, n: nat)
    requires !c.isDragging
    ensures NextTimes(c, n).currentIndex == c.currentIndex + n
    ensures NextTimes(c, n).totalSlides == c.totalSlides && !NextTimes(c, n).isDragging
    decreases n
  {
    if n > 0 {
      NextTimesIndex(SlideNext(c), n - 1);
    }
  }

  // ---------------------------------------------------------------- drag session

  /** `startDrag`: records the pointer and the translation at session start and switches the
      transition off (no-op without a track). */
  function StartDrag(c: Carousel, x: int): (r: Carousel)
    ensures !c.hasTrack ==> r == c
    ensures c.hasTrack ==>
      && r.isDragging && r.startX == x && r.prevTranslate == c.currentTranslate && !r.animated
      && r.(isDragging := c.isDragging, startX := c.startX, prevTranslate := c.prevTranslate,
            animated := c.animated) == c
  {
    if !c.hasTrack then c
    else c.(isDragging := true, startX := x, prevTranslate := c.currentTranslate, animated := false)
  }

  /** `drag`: the track follows the pointer one to one; no-op outside a session. */
  function DragMove(c: Carousel, x: int): (r: Carousel)
    ensures !c.isDragging || !c.hasTrack ==> r == c
    ensures c.isDragging && c.hasTrack ==>
      r.currentTranslate - r.prevTranslate == x - r.startX && r.(currentTranslate := c.currentTranslate) == c
  {
    if !c.isDragging || !c.hasTrack then c
    else c.(currentTranslate := c.prevTranslate + (x - c.startX))
  }

  /** `endDrag`: ends the session and moves by the whole number of slides nearest to the distance
      dragged (halves rounded up), opposite to the drag direction, then snaps back animated.
      The slide width must be positive here: the source divides by it. */
  function EndDrag(c: Carousel): (r: Carousel)
    requires c.isDragging && c.hasTrack ==> c.slideWidth > 0
    ensures !c.isDragging || !c.hasTrack ==> r == c
    ensures c.isDragging && c.hasTrack ==>
      && !r.isDragging && Positioned(r) && r.animated
      && var moved, steps, w := c.currentTranslate - c.prevTranslate, c.currentIndex - r.currentIndex, c.slideWidth;
         2 * steps * w - w <= 2 * moved < 2 * steps * w + w
    ensures r.(isDragging := c.isDragging, currentIndex := c.currentIndex,
               currentTranslate := c.currentTranslate, animated := c.animated) == c
  {
    if !c.isDragging || !c.hasTrack then c
    else
      var movedSlides := JsRoundDiv(c.currentTranslate - c.prevTranslate, c.slideWidth);
      var index := if movedSlides != 0 then c.currentIndex - movedSlides else c.currentIndex;
      SetPositionByIndex(c.(isDragging := false, currentIndex := index))
  }

  /** A whole session from pointer `x0` to pointer `x1` moves the index by `-round((x1-x0)/w)`,
      whatever the translation was before. */
  lemma DragSession(c: Carousel, x0: int, x1: int)
    requires c.hasTrack && c.slideWidth > 0
    ensures EndDrag(DragMove(StartDrag(c, x0), x1)).currentIndex
            == c.currentIndex - JsRoundDiv(x1 - x0, c.slideWidth)
  {
  }

  /** Dragging exactly one slide width to the left advances one authored slide; a session that
      does not move leaves the index where it was. */
  lemma DragOneSlideLeft(c: Carousel, x: int)
    requires c.hasTrack && c.slideWidth > 0
    ensures var r := EndDrag(DragMove(StartDrag(c, x), x - c.slideWidth));
      && r.currentIndex == c.currentIndex + 1
      && (c.totalSlides > 0 ==> RealIndex(r) == (RealIndex(c) + 1) % c.totalSlides)
    ensures EndDrag(StartDrag(c, x)).currentIndex == c.currentIndex
  {
    RoundDivExact(-1, c.slideWidth);
    RoundDivExact(0, c.slideWidth);
    DragSession(c, x, x - c.slideWidth);
    var r := EndDrag(DragMove(StartDrag(c, x), x - c.slideWidth));
    var s := SlideNext(c.(isDragging := false));
    assert r.currentIndex == s.currentIndex && r.totalSlides == s.totalSlides;
    assert RealIndex(r) == RealIndex(s);
  }

  // ---------------------------------------------------------------- event loop

  /** The inputs the carousel's listeners react to. `Resize` carries the parsed CSS gap. */
  datatype Event =
    | Next | Prev
    | Wheel(deltaX: real, deltaY: real)
    | Press(x: int) | Move(x: int) | Release
    | TransitionEnd
    | Resize(gap: Option<nat>)

  /** Steady state: a measured, positive slide width, and outside a drag the track sits exactly
      at the index. */
  predicate Steady(c: Carousel) {
    && c.slideWidth > 0
    && (c.hasTrack && !c.isDragging ==> Positioned(c))
  }

  /** One listener invocation. */
  function Step(c: Carousel, e: Event): (r: Carousel)
    requires Steady(c)
    ensures Steady(r)
    ensures r.hasContainer == c.hasContainer && r.hasTrack == c.hasTrack && r.cloneSets == c.cloneSets
  {
    match e
    case Next => SlideNext(c)
    case Prev => SlidePrev(c)
    case Wheel(dx, dy) => HandleWheel(c, dx, dy)
    case Press(x) => StartDrag(c, x)
    case Move(x) => DragMove(c, x)
    case Release => EndDrag(c)
    case TransitionEnd => NormalizeIndex(c)
    case Resize(gap) => UpdateCarousel(c, gap)
  }

  /** Any sequence of events keeps the carousel steady, and `realIndex` in range. */
  lemma {:induction false} RunSteady(c: Carousel, events: seq<Event>)
    requires Steady(c)
    ensures Steady(Run(c, events))
    ensures Run(c, events).totalSlides > 0 ==> RealIndex(Run(c, events)) < Run(c, events).totalSlides
    ensures Run(c, events).slideWidth > 0
    ensures Run(c, events).hasTrack && !Run(c, events).isDragging ==> Positioned(Run(c, events))
    decreases |events|
  {
    if events != [] {
      RunSteady(Step(c, events[0]), events[1..]);
    }
  }

  function Run(c: Carousel, events: seq<Event>): (r: Carousel)
    requires Steady(c)
    ensures r.hasContainer == c.hasContainer && r.hasTrack == c.hasTrack && r.cloneSets == c.cloneSets
    decreases |events|
  {
    if events == [] then c else Run(Step(c, events[0]), events[1..])
  }
}

=== FILE: content.dfy ===
/** `useContent`: loading the content file of a locale, with one fallback to the default locale,
    and the menu derived from the loaded blocks.

    The dynamic import of `../content/<loc>.json` is the caller-supplied `load`, which either
    yields the file's JSON or fails; validation is `ContentSchema.ParseFile`. */
module Content {
  import opened Wrappers
  import opened ContentSchema
  import JsText

  /** The outcome of importing a locale's content module. */
  datatype Imported = Imported(json: Json) | ImportFailed

  /** The result of `loadContent` with the locales it tried, in order. */
  datatype Load = Load(content: Option<ContentFile>, tried: seq<string>)

  /** The validated content of one import, None when the import or the validation failed. */
  function Attempt(i: Imported): Option<ContentFile> {
    match i
    case Imported(j) => ParseFile(j)
    case ImportFailed => None
  }

  /** `loadContent(loc)`: the validated file of `loc`; when the import throws or validation
      fails, the result of `loadContent(DEFAULT_LOCALE)` unless `loc` already is the default,
      and null then. Whatever it returns is the validated file of the last locale it tried, and
      it tries at most two. */
  function LoadContent(loc: string, defaultLocale: string, load: string -> Imported): (r: Load)
    ensures 1 <= |r.tried| <= 2 && r.tried[0] == loc && r.tried[|r.tried| - 1] in {loc, defaultLocale}
    ensures r.content.Some? ==> r.content == Attempt(load(r.tried[|r.tried| - 1]))
    ensures forall i :: 0 <= i < |r.tried| - 1 ==> Attempt(load(r.tried[i])).None?
    decreases if loc == defaultLocale then 0 else 1
  {
    var parsed := Attempt(load(loc));
    if parsed.Some? then Load(parsed, [loc])
    else if loc != defaultLocale then
      var fallback := LoadContent(defaultLocale, defaultLocale, load);
      Load(fallback.content, [loc] + fallback.tried)
    else Load(None, [loc])
  }

  /** A successful import and validation returns the validated data, trying nothing else. */
  lemma LoadSucceeds(loc: string, defaultLocale: string, load: string -> Imported, j: Json)
    requires load(loc) == Imported(j) && ParseFile(j).Some?
    ensures LoadContent(loc, defaultLocale, load) == Load(ParseFile(j), [loc])
  {
  }

  /** A failure for any locale but the default gives exactly what loading the default gives. */
  lemma LoadFallsBack(loc: string, defaultLocale: string, load: string -> Imported)
    requires Attempt(load(loc)).None? && loc != defaultLocale
    ensures LoadContent(loc, defaultLocale, load).content == LoadContent(defaultLocale, defaultLocale, load).content
    ensures LoadContent(loc, defaultLocale, load).tried == [loc, defaultLocale]
  {
  }

  /** A failure for the default locale gives null, trying nothing else. */
  lemma LoadDefaultFails(defaultLocale: string, load: string -> Imported)
    requires Attempt(load(defaultLocale)).None?
    ensures LoadContent(defaultLocale, defaultLocale, load) == Load(None, [defaultLocale])
  {
  }

  /** The result is null exactly when both the locale and the default fail. */
  lemma LoadNullIff(loc: string, defaultLocale: string, load: string -> Imported)
    ensures LoadContent(loc, defaultLocale, load).content.None? <==>
      Attempt(load(loc)).None? && Attempt(load(defaultLocale)).None?
  {
  }

  // ---------------------------------------------------------------- menu items

  /** `MenuItem`: a block's `type` with its `menuName` as written. */
  datatype MenuItem = MenuItem(blockType: string, menuName: string)

  /** The filter of `menuItems`: a `menuName` string whose trimmed value is not empty. */
  predicate InMenu(b: Block) {
    MenuName(b).Some? && JsText.Trim(MenuName(b).value) != ""
  }

  /** The map of `menuItems`: the untrimmed name is kept. */
  function ItemOf(b: Block): MenuItem
    requires MenuName(b).Some?
  {
    MenuItem(BlockType(b), MenuName(b).value)
  }

  function MenuOf(blocks: seq<Block>): (r: seq<MenuItem>)
    ensures |r| <= |blocks|
    ensures forall k :: 0 <= k < |r| ==> exists i :: 0 <= i < |blocks| && InMenu(blocks[i]) && r[k] == ItemOf(blocks[i])
  {
    if blocks == [] then []
    else
      var rest := MenuOf(blocks[1..]);
      assert forall i :: 0 <= i < |blocks| - 1 ==> blocks[1..][i] == blocks[i + 1];
      if InMenu(blocks[0]) then [ItemOf(blocks[0])] + rest else rest
  }

  /** `menuItems`: empty while no content is loaded. */
  function MenuItems(content: Option<ContentFile>): (r: seq<MenuItem>)
    ensures content.None? ==> r == []
  {
    match content
    case None => []
    case Some(f) => MenuOf(f.blocks)
  }

  /** The menu of two runs of blocks is the first run's menu followed by the second's: the
      blocks keep their document order. */
  lemma {:induction false} MenuOfConcat(a: seq<Block>, b: seq<Block>)
    ensures MenuOf(a + b) == MenuOf(a) + MenuOf(b)
  {
    if a == [] {
      assert a + b == b;
    } else {
      assert (a + b)[1..] == a[1..] + b;
      MenuOfConcat(a[1..], b);
    }
  }

  /** One block gives one item exactly when its `menuName` is present and not all whitespace;
      hero and footer blocks never give one. */
  lemma MenuOfOne(b: Block)
    ensures MenuOf([b]) == if MenuName(b).Some? && !JsText.Blank(MenuName(b).value) then [ItemOf(b)] else []
    ensures b.Hero? || b.Footer? ==> MenuOf([b]) == []
  {
    assert [b][1..] == [];
    if MenuName(b).Some? {
      JsText.TrimEmptyIffBlank(MenuName(b).value);
    }
  }

  /** Every block that qualifies contributes its item. */
  lemma {:induction false} MenuOfComplete(blocks: seq<Block>, i: nat)
    requires i < |blocks| && InMenu(blocks[i])
    ensures ItemOf(blocks[i]) in MenuOf(blocks)
  {
    assert blocks == blocks[..i] + [blocks[i]] + blocks[i + 1..];
    MenuOfConcat(blocks[..i] + [blocks[i]], blocks[i + 1..]);
    MenuOfConcat(blocks[..i], [blocks[i]]);
    MenuOfOne(blocks[i]);
    JsText.TrimEmptyIffBlank(MenuName(blocks[i]).value);
  }
}

=== FILE: content_schema.dfy ===
/** The content file schema: a JSON value with a `blocks` array, each block one of six variants
    told apart by its literal `type`. `ParseFile` is the schema's validator (`safeParse`): it
    either rejects the value or returns the typed file, keeping only the declared fields (the
    schema's objects drop keys they do not declare). */
module ContentSchema {
  import opened Wrappers

  /** A JSON value as the content loader receives it. JSON has no NaN or infinities, so every
      number is a real. */
  datatype Json =
    | JNull
    | JBool(b: bool)
    | JNum(n: real)
    | JStr(s: string)
    | JArr(items: seq<Json>)
    | JObj(fields: map<string, Json>)

  datatype Product = Product(name: string, image: string, description: string, price: real)

  /** `PageBlock`: the six variants. Only popular, about, products and contact carry a
      `menuName`. */
  datatype Block =
    | Hero(title: string, description: string, anchor: Option<string>)
    | Popular(menuName: Option<string>, title: string, anchor: Option<string>, products: seq<Product>)
    | About(menuName: Option<string>, title: string)
    | ProductList(menuName: Option<string>, title: string)
    | Contact(menuName: Option<string>, title: string)
    | Footer(title: string)

  datatype ContentFile = ContentFile(blocks: seq<Block>)

  /** The literal `type` of a block. */
  function BlockType(b: Block): string {
    match b
    case Hero(_, _, _) => "hero"
    case Popular(_, _, _, _) => "popular"
    case About(_, _) => "about"
    case ProductList(_, _) => "products"
    case Contact(_, _) => "contact"
    case Footer(_) => "footer"
  }

  /** The `type` literal tells the six variants apart. */
  lemma BlockTypeDeterminesVariant(a: Block, b: Block)
    requires BlockType(a) == BlockType(b)
    ensures a.Hero? == b.Hero? && a.Popular? == b.Popular? && a.About? == b.About?
    ensures a.ProductList? == b.ProductList? && a.Contact? == b.Contact? && a.Footer? == b.Footer?
  {
    var t := BlockType(a);
    assert t == "hero" ==> t[0] == 'h';
    assert t == "footer" ==> t[0] == 'f';
    assert t == "contact" ==> t[0] == 'c';
    assert t == "about" ==> t[0] == 'a';
    assert t == "popular" ==> t[0..2] == "po";
    assert t == "products" ==> t[0..2] == "pr";
  }

  /** The block's `menuName`: never present on hero and footer blocks. */
  function MenuName(b: Block): (r: Option<string>)
    ensures b.Hero? || b.Footer? ==> r == None
  {
    match b
    case Hero(_, _, _) => None
    case Footer(_) => None
    case Popular(m, _, _, _) => m
    case About(m, _) => m
    case ProductList(m, _) => m
    case Contact(m, _) => m
  }

  // ---------------------------------------------------------------- field validators

  /** `z.string()` at key `k`: present and a string. */
  function RequiredString(o: map<string, Json>, k: string): (r: Option<string>)
    ensures r.Some? <==> k in o && o[k].JStr?
    ensures r.Some? ==> o[k] == JStr(r.value)
  {
    if k in o && o[k].JStr? then Some(o[k].s) else None
  }

  /** `z.string().optional()` at key `k`: Some(None) when the key is absent, Some(Some(s)) for a
      string, None (rejection) for anything else, `null` included. */
  function OptionalString(o: map<string, Json>, k: string): (r: Option<Option<string>>)
    ensures r == Some(None) <==> k !in o
    ensures r.Some? && r.value.Some? <==> k in o && o[k].JStr?
    ensures r.Some? && r.value.Some? ==> o[k] == JStr(r.value.value)
  {
    if k !in o then Some(None)
    else if o[k].JStr? then Some(Some(o[k].s))
    else None
  }

  /** `z.array(item)`: every element must pass; the results keep their order. */
  function ParseAll<T>(js: seq<Json>, item: Json -> Option<T>): (r: Option<seq<T>>)
    ensures r.Some? <==> forall i :: 0 <= i < |js| ==> item(js[i]).Some?
    ensures r.Some? ==> |r.value| == |js| && forall i :: 0 <= i < |js| ==> item(js[i]) == Some(r.value[i])
  {
    if js == [] then Some([])
    else
      match (item(js[0]), ParseAll(js[1..], item))
      case (Some(x), Some(xs)) =>
        assert forall i :: 1 <= i < |js| ==> js[i] == js[1..][i - 1];
        Some([x] + xs)
      case _ =>
        assert forall i :: 1 <= i < |js| ==> js[i] == js[1..][i - 1];
        None
  }

  // ---------------------------------------------------------------- what an accepted value carries

  /** Key `k` of `o` holds the string `s`. */
  predicate HasString(o: map<string, Json>, k: string, s: string) {
    k in o && o[k] == JStr(s)
  }

  /** An optional string field: absent for None, the string itself for Some. */
  predicate HasOptional(o: map<string, Json>, k: string, v: Option<string>) {
    match v
    case None => k !in o
    case Some(s) => HasString(o, k, s)
  }

  /** The JSON of product `p`: an object whose declared fields hold `p`'s values. */
  predicate ProductCarries(j: Json, p: Product) {
    && j.JObj?
    && HasString(j.fields, "name", p.name)
    && HasString(j.fields, "image", p.image)
    && HasString(j.fields, "description", p.description)
    && "price" in j.fields && j.fields["price"] == JNum(p.price)
  }

  /** The `props` object of block `b` holds `b`'s declared fields. */
  predicate PropsCarry(props: Json, b: Block) {
    && props.JObj?
    && HasString(props.fields, "title", b.title)
    && match b
       case Hero(_, description, anchor) =>
         HasString(props.fields, "description", description) && HasOptional(props.fields, "anchor", anchor)
       case Popular(_, _, anchor, products) =>
         && HasOptional(props.fields, "anchor", anchor)
         && "products" in props.fields && props.fields["products"].JArr?
         && |props.fields["products"].items| == |products|
         && forall i :: 0 <= i < |products| ==> ProductCarries(props.fields["products"].items[i], products[i])
       case _ => true
  }

  /** The JSON of block `b`: its `type` literal, its `menuName` for the variants that declare
      one, and its props. */
  predicate BlockCarries(j: Json, b: Block) {
    && j.JObj?
    && HasString(j.fields, "type", BlockType(b))
    && (b.Hero? || b.Footer? || HasOptional(j.fields, "menuName", MenuName(b)))
    && "props" in j.fields && PropsCarry(j.fields["props"], b)
  }

  /** `PopularProductSchema`: accepts exactly the JSON that carries the product it returns. */
  function ParseProduct(j: Json): (r: Option<Product>)
    ensures r.Some? ==> ProductCarries(j, r.value)
    ensures forall p :: ProductCarries(j, p) ==> r == Some(p)
  {
    if !j.JObj? then None
    else
      var o := j.fields;
      match (RequiredString(o, "name"), RequiredString(o, "image"), RequiredString(o, "description"))
      case (Some(name), Some(image), Some(description)) =>
        if "price" in o && o["price"].JNum? then Some(Product(name, image, description, o["price"].n))
        else None
      case _ => None
  }

  /** A `props` object whose only declared field is a required `title` string. */
  function ParseTitleProps(j: Json): (r: Option<string>)
    ensures r.Some? <==> j.JObj? && "title" in j.fields && j.fields["title"].JStr?
    ensures r.Some? ==> HasString(j.fields, "title", r.value)
  {
    if j.JObj? then RequiredString(j.fields, "title") else None
  }

  /** `HeroBlockPropsSchema`: required `title` and `description`, optional `anchor`. */
  function ParseHero(props: Json): (r: Option<Block>)
    ensures r.Some? ==> r.value.Hero? && PropsCarry(props, r.value)
    ensures forall b: Block :: b.Hero? && PropsCarry(props, b) ==> r == Some(b)
  {
    if !props.JObj? then None
    else
      match (RequiredString(props.fields, "title"), RequiredString(props.fields, "description"),
             OptionalString(props.fields, "anchor"))
      case (Some(title), Some(description), Some(anchor)) => Some(Hero(title, description, anchor))
      case _ => None
  }

  /** `PopularBlockSchema`, given its validated `menuName`: required `title` and `products`,
      optional `anchor`. */
  function ParsePopular(menu: Option<Option<string>>, props: Json): (r: Option<Block>)
    ensures r.Some? ==> r.value.Popular? && menu == Some(r.value.menuName) && PropsCarry(props, r.value)
    ensures forall b: Block :: b.Popular? && menu == Some(b.menuName) && PropsCarry(props, b) ==> r == Some(b)
  {
    if !props.JObj? || !("products" in props.fields && props.fields["products"].JArr?) then None
    else
      var items := props.fields["products"].items;
      assert forall b: Block :: b.Popular? && PropsCarry(props, b) ==> ParseAll(items, ParseProduct) == Some(b.products) by {
        forall b: Block | b.Popular? && PropsCarry(props, b) ensures ParseAll(items, ParseProduct) == Some(b.products) {
          ProductsCarried(items, b.products);
        }
      }
      match (menu, RequiredString(props.fields, "title"), OptionalString(props.fields, "anchor"),
             ParseAll(items, ParseProduct))
      case (Some(m), Some(title), Some(anchor), Some(products)) => Some(Popular(m, title, anchor, products))
      case _ => None
  }

  /** Product JSON that carries its products parses to exactly those products. */
  lemma ProductsCarried(items: seq<Json>, ps: seq<Product>)
    requires |items| == |ps| && forall i :: 0 <= i < |ps| ==> ProductCarries(items[i], ps[i])
    ensures ParseAll(items, ParseProduct) == Some(ps)
  {
    var r := ParseAll(items, ParseProduct);
    assert forall i :: 0 <= i < |items| ==> ParseProduct(items[i]) == Some(ps[i]);
    assert r.Some?;
    assert r.value == ps;
  }

  /** The variant schemas, each given the block object, for the `type` it declares. */
  function ParseVariant(t: string, o: map<string, Json>): (r: Option<Block>)
    ensures r.Some? ==> BlockType(r.value) == t
  {
    var menu := OptionalString(o, "menuName");
    var props := if "props" in o then o["props"] else JNull;
    if t == "hero" then ParseHero(props)
    else if t == "popular" then ParsePopular(menu, props)
    else if t == "about" || t == "products" || t == "contact" then
      match (menu, ParseTitleProps(props))
      case (Some(m), Some(title)) =>
        Some(if t == "about" then About(m, title) else if t == "products" then ProductList(m, title) else Contact(m, title))
      case _ => None
    else if t == "footer" then
      match ParseTitleProps(props)
      case Some(title) => Some(Footer(title))
      case None => None
    else None
  }

  /** `BlockSchema.safeParse`: the union tries the variants in order, and since each requires
      its own `type` literal, only the variant named by `type` can accept. */
  function ParseBlock(j: Json): (r: Option<Block>)
    ensures r.Some? ==> j.JObj? && "type" in j.fields && j.fields["type"] == JStr(BlockType(r.value))
  {
    if j.JObj? && "type" in j.fields && j.fields["type"].JStr? then
      ParseVariant(j.fields["type"].s, j.fields)
    else None
  }

  /** `ContentFileSchema.safeParse`: a file is accepted exactly when it is an object whose
      `blocks` is an array every element of which is a valid block, so one bad block rejects the
      whole file. The accepted file holds the parsed blocks in document order. */
  function ParseFile(j: Json): (r: Option<ContentFile>)
    ensures r.Some? <==>
      && j.JObj? && "blocks" in j.fields && j.fields["blocks"].JArr?
      && forall i :: 0 <= i < |j.fields["blocks"].items| ==> ParseBlock(j.fields["blocks"].items[i]).Some?
    ensures r.Some? ==>
      var items := j.fields["blocks"].items;
      && |r.value.blocks| == |items|
      && forall i :: 0 <= i < |items| ==> ParseBlock(items[i]) == Some(r.value.blocks[i])
  {
    if j.JObj? && "blocks" in j.fields && j.fields["blocks"].JArr? then
      match ParseAll(j.fields["blocks"].items, ParseBlock)
      case Some(blocks) => Some(ContentFile(blocks))
      case None => None
    else None
  }

  /** Validation is sound and complete: a block is accepted as `b` exactly when its JSON carries
      every field `b` declares, with `b`'s values. A missing or mistyped required field, or a
      mistyped optional one, therefore rejects it. */
  lemma BlockSound(j: Json, b: Block)
    ensures ParseBlock(j) == Some(b) <==> BlockCarries(j, b)
  {
    if ParseBlock(j) == Some(b) {
      BlockSoundVariant(j, b);
    }
    if BlockCarries(j, b) {
      BlockCompleteVariant(j, b);
    }
  }

  lemma BlockSoundVariant(j: Json, b: Block)
    requires ParseBlock(j) == Some(b)
    ensures BlockCarries(j, b)
  {
    var o := j.fields;
    var props := if "props" in o then o["props"] else JNull;
    assert props.JObj?;
    if b.Popular? || b.About? || b.ProductList? || b.Contact? {
      assert OptionalString(o, "menuName") == Some(MenuName(b));
    }
  }

  lemma BlockCompleteVariant(j: Json, b: Block)
    requires BlockCarries(j, b)
    ensures ParseBlock(j) == Some(b)
  {
    var o := j.fields;
    assert o["type"].s == BlockType(b);
    if b.Popular? || b.About? || b.ProductList? || b.Contact? {
      assert OptionalString(o, "menuName") == Some(MenuName(b));
    }
    if !b.Hero? && !b.Popular? {
      assert ParseTitleProps(o["props"]) == Some(b.title);
    }
  }

  /** A block whose props lack a string `title` is rejected, whatever its type. */
  lemma MissingTitleRejected(j: Json)
    requires j.JObj? && "props" in j.fields
    requires !(j.fields["props"].JObj? && "title" in j.fields["props"].fields && j.fields["props"].fields["title"].JStr?)
    ensures ParseBlock(j) == None
  {
  }

  /** A hero block whose props lack a string `description` is rejected. */
  lemma HeroWithoutDescriptionRejected(j: Json)
    requires j.JObj? && "type" in j.fields && j.fields["type"] == JStr("hero") && "props" in j.fields
    requires !(j.fields["props"].JObj? && "description" in j.fields["props"].fields
               && j.fields["props"].fields["description"].JStr?)
    ensures ParseBlock(j) == None
  {
  }

  /** An accepted file's blocks are the JSON's blocks, each carrying its block's fields. */
  lemma FileSound(j: Json, f: ContentFile)
    requires ParseFile(j) == Some(f)
    ensures j.JObj? && "blocks" in j.fields && j.fields["blocks"].JArr?
    ensures |j.fields["blocks"].items| == |f.blocks|
    ensures forall i :: 0 <= i < |f.blocks| ==> BlockCarries(j.fields["blocks"].items[i], f.blocks[i])
  {
    forall i | 0 <= i < |f.blocks| ensures BlockCarries(j.fields["blocks"].items[i], f.blocks[i]) {
      BlockSound(j.fields["blocks"].items[i], f.blocks[i]);
    }
  }

  // ---------------------------------------------------------------- encoding

  /** Adds an optional string field when it is present. */
  function WithOptional(o: map<string, Json>, k: string, v: Option<string>): map<string, Json> {
    if v.Some? then o[k := JStr(v.value)] else o
  }

  function EncodeProduct(p: Product): Json {
    JObj(map["name" := JStr(p.name), "image" := JStr(p.image), "description" := JStr(p.description),
             "price" := JNum(p.price)])
  }

  /** The JSON a content author writes for a block. */
  function EncodeBlock(b: Block): Json {
    var props := match b
      case Hero(title, description, anchor) =>
        WithOptional(map["title" := JStr(title), "description" := JStr(description)], "anchor", anchor)
      case Popular(_, title, anchor, products) =>
        WithOptional(map["title" := JStr(title), "products" := JArr(seq(|products|, i requires 0 <= i < |products| => EncodeProduct(products[i])))], "anchor", anchor)
      case _ => map["title" := JStr(b.title)];
    JObj(WithOptional(map["type" := JStr(BlockType(b)), "props" := JObj(props)], "menuName", MenuName(b)))
  }

  function EncodeFile(f: ContentFile): Json {
    JObj(map["blocks" := JArr(seq(|f.blocks|, i requires 0 <= i < |f.blocks| => EncodeBlock(f.blocks[i])))])
  }

  /** An optional field written by `WithOptional` validates back to the same option, and the
      other keys are untouched. */
  lemma OptionalRoundTrip(o: map<string, Json>, k: string, v: Option<string>)
    requires k !in o
    ensures OptionalString(WithOptional(o, k, v), k) == Some(v)
    ensures forall k' :: k' != k ==> (k' in WithOptional(o, k, v) <==> k' in o)
    ensures forall k' :: k' != k && k' in o ==> WithOptional(o, k, v)[k'] == o[k']
  {
  }

  lemma ProductRoundTrip(p: Product)
    ensures ParseProduct(EncodeProduct(p)) == Some(p)
  {
  }

  lemma ProductsRoundTrip(ps: seq<Product>)
    ensures var js := seq(|ps|, i requires 0 <= i < |ps| => EncodeProduct(ps[i]));
      ParseAll(js, ParseProduct) == Some(ps)
  {
    var js := seq(|ps|, i requires 0 <= i < |ps| => EncodeProduct(ps[i]));
    forall i | 0 <= i < |js| ensures ParseProduct(js[i]) == Some(ps[i]) {
      ProductRoundTrip(ps[i]);
    }
    var r := ParseAll(js, ParseProduct);
    assert r.Some?;
    assert r.value == ps;
  }

  /** The block object of `EncodeBlock`: its `type`, its `props`, and its `menuName` exactly
      when the block has one. */
  lemma EncodeBlockShape(b: Block)
    ensures var o := EncodeBlock(b).fields;
      && "type" in o && o["type"] == JStr(BlockType(b))
      && "props" in o && o["props"].JObj?
      && OptionalString(o, "menuName") == Some(MenuName(b))
  {
    var o := EncodeBlock(b).fields;
    var props := o["props"];
    OptionalRoundTrip(map["type" := JStr(BlockType(b)), "props" := props], "menuName", MenuName(b));
  }

  /** Every block validates back to itself from its JSON. */
  lemma BlockRoundTrip(b: Block)
    ensures ParseBlock(EncodeBlock(b)) == Some(b)
  {
    EncodeBlockShape(b);
    var o := EncodeBlock(b).fields;
    if b.Hero? {
      HeroRoundTrip(b);
    } else if b.Popular? {
      PopularRoundTrip(b);
    } else {
      assert ParseTitleProps(o["props"]) == Some(b.title);
    }
  }

  lemma HeroRoundTrip(b: Block)
    requires b.Hero?
    ensures ParseHero(EncodeBlock(b).fields["props"]) == Some(b)
  {
    EncodeBlockShape(b);
    var props := EncodeBlock(b).fields["props"].fields;
    OptionalRoundTrip(map["title" := JStr(b.title), "description" := JStr(b.description)], "anchor", b.anchor);
    assert RequiredString(props, "title") == Some(b.title);
    assert RequiredString(props, "description") == Some(b.description);
  }

  lemma PopularRoundTrip(b: Block)
    requires b.Popular?
    ensures ParsePopular(Some(b.menuName), EncodeBlock(b).fields["props"]) == Some(b)
  {
    EncodeBlockShape(b);
    var props := EncodeBlock(b).fields["props"].fields;
    var ps := seq(|b.products|, i requires 0 <= i < |b.products| => EncodeProduct(b.products[i]));
    OptionalRoundTrip(map["title" := JStr(b.title), "products" := JArr(ps)], "anchor", b.anchor);
    ProductsRoundTrip(b.products);
    assert props["products"] == JArr(ps);
    assert RequiredString(props, "title") == Some(b.title);
    assert OptionalString(props, "anchor") == Some(b.anchor);
  }

  /** Every content file validates back to itself from its JSON. */
  lemma FileRoundTrip(f: ContentFile)
    ensures ParseFile(EncodeFile(f)) == Some(f)
  {
    var js := EncodeFile(f).fields["blocks"].items;
    forall i | 0 <= i < |js| ensures ParseBlock(js[i]) == Some(f.blocks[i]) {
      BlockRoundTrip(f.blocks[i]);
    }
    var r := ParseAll(js, ParseBlock);
    assert r.Some?;
    assert r.value == f.blocks;
  }

  /** `menuName` is optional but not nullable: a present `menuName` that is not a string, `null`
      included, rejects the block of every variant that declares it. */
  lemma NonStringMenuNameRejected(o: map<string, Json>, t: string)
    requires t in {"popular", "about", "products", "contact"}
    requires "menuName" in o && !o["menuName"].JStr?
    ensures ParseVariant(t, o) == None
  {
  }

  /** A hero or footer block keeps no `menuName`, even when its JSON carries one: the schemas
      of those two variants do not declare the field and drop it. */
  lemma UndeclaredMenuNameDropped(j: Json, name: string)
    requires j.JObj? && ParseBlock(j).Some? && (ParseBlock(j).value.Hero? || ParseBlock(j).value.Footer?)
    ensures ParseBlock(JObj(j.fields["menuName" := JStr(name)])) == ParseBlock(j)
    ensures MenuName(ParseBlock(j).value) == None
  {
    var o := j.fields["menuName" := JStr(name)];
    assert o["type"] == j.fields["type"];
    assert ("props" in o) == ("props" in j.fields);
    if "props" in o { assert o["props"] == j.fields["props"]; }
  }
}

=== FILE: js_arith.dfy ===
/** The two pieces of JavaScript number arithmetic the carousel depends on, on integers. */
module JsArith {

  /** JavaScript's `a % n` for a positive divisor: the remainder of division truncated toward
      zero, so it takes the sign of the dividend (unlike Dafny's `%`, which is never negative). */
  function JsRem(a: int, n: int): (r: int)
    requires n > 0
    ensures -n < r < n
    ensures a >= 0 ==> r >= 0
    ensures a < 0 ==> r <= 0
    ensures (a - r) % n == 0
  {
    if a >= 0 then
      MultipleMod(n, a / n);
      a % n
    else
      var b := -a;
      assert a + b % n == n * (-(b / n));
      MultipleMod(n, -(b / n));
      -(b % n)
  }

  /** A multiple of `n` leaves remainder 0. */
  lemma MultipleMod(n: int, q: int)
    requires n > 0
    ensures (n * q) % n == 0
  {
    var x := n * q;
    var d := q - x / n;
    assert x % n == n * d;
  }

  /** `Math.round(m / w)` for integer `m` and positive integer `w`: the nearest integer to m/w,
      halves rounded up, i.e. floor(m/w + 1/2) = floor((2m + w) / (2w)). */
  function JsRoundDiv(m: int, w: int): (r: int)
    requires w > 0
    ensures 2 * r * w - w <= 2 * m < 2 * r * w + w
  {
    var q := (2 * m + w) / (2 * w);
    assert 2 * m + w == 2 * w * q + (2 * m + w) % (2 * w);
    q
  }

  /** The bracket of `JsRoundDiv` determines its result: it is the only integer there. */
  lemma RoundDivUnique(m: int, w: int, r: int)
    requires w > 0
    requires 2 * r * w - w <= 2 * m < 2 * r * w + w
    ensures JsRoundDiv(m, w) == r
  {
    var q := JsRoundDiv(m, w);
    var d := r - q;
    assert 2 * r * w == 2 * q * w + 2 * d * w;
    assert -2 * w < 2 * d * w < 2 * w;

  }

  /** Moving by a whole number of widths rounds to exactly that number. */
  lemma RoundDivExact(k: int, w: int)
    requires w > 0
    ensures JsRoundDiv(k * w, w) == k
  {
    RoundDivUnique(k * w, w, k);
  }

  /** Dafny's `%` is the Euclidean remainder: any decomposition with a remainder in [0, n) is it. */
  lemma ModUnique(a: int, n: int, q: int, r: int)
    requires n > 0 && 0 <= r < n && a == n * q + r
    ensures a % n == r
  {
    var d := q - a / n;
    assert a % n - r == n * d;
  }

  /** Adding a multiple of `n` does not change the Euclidean remainder. */
  lemma ModAddMultiple(a: int, n: int, m: int)
    requires n > 0
    ensures (a + n * m) % n == a % n
  {
    assert a == n * (a / n) + a % n;
    assert a + n * m == n * (a / n + m) + a % n;
    ModUnique(a + n * m, n, a / n + m, a % n);
  }

  /** The idiom `((a % n) + n) % n` built from truncating remainders yields the Euclidean
      remainder: a value in [0, n) congruent to `a`, for negative `a` too. */
  lemma JsRemNormalised(a: int, n: int)
    requires n > 0
    ensures JsRem(JsRem(a, n) + n, n) == a % n
  {
    var r1 := JsRem(a, n);
    var r := JsRem(r1 + n, n);
    var q1 := (a - r1) / n;
    var q2 := (r1 + n - r) / n;
    assert a - r1 == n * q1 by { assert (a - r1) % n == 0; }
    assert r1 + n - r == n * q2 by { assert (r1 + n - r) % n == 0; }
    assert a == n * (q1 + q2 - 1) + r;
    ModUnique(a, n, q1 + q2 - 1, r);
  }
}

=== FILE: js_map.dfy ===
/** A JavaScript `Map` as the sequence of its entries in insertion order. `set` on an existing key
    rewrites the entry where it stands, `set` on a new key appends, `delete` removes the entry. */
module JsMap {
  import opened Wrappers

  /** The keys in insertion order (what `map.keys()` iterates). */
  function Keys<K, V>(m: seq<(K, V)>): (ks: seq<K>)
    ensures |ks| == |m|
  {
    seq(|m|, i requires 0 <= i < |m| => m[i].0)
  }

  /** No key occurs twice: true of every sequence the operations below build from `[]`. */
  predicate Distinct<K(==), V>(m: seq<(K, V)>) {
    forall i, j :: 0 <= i < j < |m| ==> m[i].0 != m[j].0
  }

  /** Position of the first entry with key `k`. */
  function KeyIndex<K(==), V>(m: seq<(K, V)>, k: K): (i: nat)
    requires k in Keys(m)
    ensures i < |m| && m[i].0 == k
    ensures forall j :: 0 <= j < i ==> m[j].0 != k
  {
    if m[0].0 == k then 0
    else
      assert Keys(m) == [m[0].0] + Keys(m[1..]);
      KeyIndex(m[1..], k) + 1
  }

  /** `map.get(k)`: the value of the first entry with key `k`, None when there is none. */
  function Get<K(==), V>(m: seq<(K, V)>, k: K): (r: Option<V>)
    ensures r.None? <==> k !in Keys(m)
    ensures r.Some? ==> r.value == m[KeyIndex(m, k)].1
  {
    if m == [] then None
    else
      assert Keys(m) == [m[0].0] + Keys(m[1..]);
      if m[0].0 == k then Some(m[0].1) else Get(m[1..], k)
  }

  /** In a map with distinct keys, the entry at position `i` is what `get` returns for its key. */
  lemma GetAt<K, V>(m: seq<(K, V)>, i: nat)
    requires Distinct(m) && i < |m|
    ensures Get(m, m[i].0) == Some(m[i].1)
  {
    assert Keys(m)[i] == m[i].0;
  }

  /** `map.set(k, v)`: an existing key keeps its position and takes the new value; a new key is
      appended. */
  function Set<K(==), V>(m: seq<(K, V)>, k: K, v: V): (r: seq<(K, V)>)
    ensures k in Keys(m) ==> r == m[KeyIndex(m, k) := (k, v)]
    ensures k !in Keys(m) ==> r == m + [(k, v)]
  {
    if m == [] then [(k, v)]
    else
      assert Keys(m) == [m[0].0] + Keys(m[1..]);
      if m[0].0 == k then [(k, v)] + m[1..] else [m[0]] + Set(m[1..], k, v)
  }

  /** `map.delete(k)`: the entry with key `k` is removed, the others keep their order. */
  function Delete<K(==), V>(m: seq<(K, V)>, k: K): (r: seq<(K, V)>)
    ensures k !in Keys(m) ==> r == m
    ensures k in Keys(m) ==> |r| == |m| - 1
  {
    if k in Keys(m) then
      var i := KeyIndex(m, k);
      m[..i] + m[i + 1..]
    else m
  }

  /** Setting keeps the keys distinct and makes `get(k)` return the new value, other keys untouched. */
  lemma SetGet<K, V>(m: seq<(K, V)>, k: K, v: V, k': K)
    requires Distinct(m)
    ensures Distinct(Set(m, k, v))
    ensures Get(Set(m, k, v), k) == Some(v)
    ensures k' != k ==> Get(Set(m, k, v), k') == Get(m, k')
  {
    var r := Set(m, k, v);
    if k in Keys(m) {
      var i := KeyIndex(m, k);
      assert Keys(r) == Keys(m);
      GetAt(r, i);
      if k' != k && k' in Keys(m) { GetAt(m, KeyIndex(m, k')); GetAt(r, KeyIndex(m, k')); }
    } else {
      assert Keys(r) == Keys(m) + [k];
      forall i | 0 <= i < |m| ensures m[i].0 != k {
        assert Keys(m)[i] == m[i].0;
      }
      GetAt(r, |m|);
      if k' != k && k' in Keys(m) { GetAt(m, KeyIndex(m, k')); GetAt(r, KeyIndex(m, k')); }
    }
  }

  /** Deleting keeps the keys distinct, makes `get(k)` absent and leaves the other keys untouched. */
  lemma DeleteGet<K, V>(m: seq<(K, V)>, k: K, k': K)
    requires Distinct(m)
    ensures Distinct(Delete(m, k))
    ensures Get(Delete(m, k), k) == None
    ensures k' != k ==> Get(Delete(m, k), k') == Get(m, k')
  {
    if k in Keys(m) {
      var i := KeyIndex(m, k);
      DeleteShape(m, k);
      DeleteKeys(m, k, k);
      if k' != k {
        DeleteKeys(m, k, k');
        if k' in Keys(m) {
          var j := KeyIndex(m, k');
          GetAt(m, j);
          if j < i { GetAt(Delete(m, k), j); } else { GetAt(Delete(m, k), j - 1); }
        }
      }
    }
  }

  /** After deleting the entry at position `i`, every later entry moves down one place. */
  lemma DeleteShape<K, V>(m: seq<(K, V)>, k: K)
    requires Distinct(m) && k in Keys(m)
    ensures forall a :: 0 <= a < |Delete(m, k)| ==>
      Delete(m, k)[a] == m[if a < KeyIndex(m, k) then a else a + 1]
    ensures Distinct(Delete(m, k))
  {
  }

  /** A key survives deletion exactly when it is present and is not the deleted one. */
  lemma DeleteKeys<K, V>(m: seq<(K, V)>, k: K, k': K)
    requires Distinct(m) && k in Keys(m)
    ensures k' in Keys(Delete(m, k)) <==> k' in Keys(m) && k' != k
  {
    var r := Delete(m, k);
    var i := KeyIndex(m, k);
    DeleteShape(m, k);
    if k' in Keys(r) {
      var a :| 0 <= a < |r| && Keys(r)[a] == k';
      var b := if a < i then a else a + 1;
      assert r[a] == m[b];
      assert Keys(m)[b] == k';
      assert b != i;
    }
    if k' in Keys(m) && k' != k {
      var j :| 0 <= j < |m| && Keys(m)[j] == k';
      assert j != i;
      var a := if j < i then j else j - 1;
      assert r[a] == m[j];
      assert Keys(r)[a] == k';
    }
  }

  /** The set of keys of a map. */
  function KeySet<K, V>(m: seq<(K, V)>): set<K> {
    set i | 0 <= i < |m| :: m[i].0
  }

  /** The keys of a non-empty map are those of all but its last entry, plus the last key. */
  lemma KeySetSnoc<K, V>(m: seq<(K, V)>)
    requires m != []
    ensures KeySet(m) == KeySet(m[..|m| - 1]) + {m[|m| - 1].0}
  {
    var init := m[..|m| - 1];
    forall x | x in KeySet(m) ensures x in KeySet(init) + {m[|m| - 1].0} {
      var i :| 0 <= i < |m| && m[i].0 == x;
      if i < |m| - 1 { assert init[i] == m[i]; }
    }
    forall x | x in KeySet(init) ensures x in KeySet(m) {
      var i :| 0 <= i < |init| && init[i].0 == x;
      assert m[i] == init[i];
    }
  }

  /** With distinct keys, a map has as many entries as keys. */
  lemma {:induction false} DistinctKeySetSize<K, V>(m: seq<(K, V)>)
    requires Distinct(m)
    ensures |KeySet(m)| == |m|
    decreases |m|
  {
    if m != [] {
      var init := m[..|m| - 1];
      var last := m[|m| - 1].0;
      assert Distinct(init);
      DistinctKeySetSize(init);
      KeySetSnoc(m);
      assert last !in KeySet(init);
    }
  }
}

=== FILE: js_text.dfy ===
/** The string operations of JavaScript the model relies on: the whitespace class shared by the
    regular expression `\s` and `String.prototype.trim`, global whitespace removal, trimming, and
    `replace` with a one-character string pattern (which replaces the first occurrence only). */
module JsText {

  /** ECMAScript WhiteSpace and LineTerminator code points: exactly what `\s` matches and what
      `trim` strips. */
  predicate IsSpace(c: char) {
    || c == '\t' || c == '\n' || c == '\U{000B}' || c == '\U{000C}' || c == '\r' || c == ' '
    || c == '\U{00A0}' || c == '\U{1680}' || ('\U{2000}' <= c <= '\U{200A}')
    || c == '\U{2028}' || c == '\U{2029}' || c == '\U{202F}' || c == '\U{205F}'
    || c == '\U{3000}' || c == '\U{FEFF}'
  }

  /** Every character of `s` is whitespace (the empty string included). */
  predicate Blank(s: string) {
    forall i :: 0 <= i < |s| ==> IsSpace(s[i])
  }

  /** `s.replace(/\s+/g, "")`: every whitespace character removed, the others kept in order. */
  function RemoveSpaces(s: string): (r: string)
    ensures |r| <= |s|
    ensures Blank(s) <==> r == []
    ensures forall i :: 0 <= i < |r| ==> !IsSpace(r[i])
    ensures (forall i :: 0 <= i < |s| ==> !IsSpace(s[i])) ==> r == s
  {
    if s == [] then []
    else if IsSpace(s[0]) then RemoveSpaces(s[1..])
    else [s[0]] + RemoveSpaces(s[1..])
  }

  /** Removal distributes over concatenation: the kept characters keep their relative order. */
  lemma {:induction false} RemoveSpacesConcat(a: string, b: string)
    ensures RemoveSpaces(a + b) == RemoveSpaces(a) + RemoveSpaces(b)
  {
    if a == [] {
      assert a + b == b;
    } else {
      assert (a + b)[1..] == a[1..] + b;
      RemoveSpacesConcat(a[1..], b);
    }
  }

  /** Position of the first occurrence of `c` in `s`. */
  function IndexOf(s: string, c: char): (i: nat)
    requires c in s
    ensures i < |s| && s[i] == c && c !in s[..i]
  {
    if s[0] == c then 0
    else
      var j := IndexOf(s[1..], c);
      assert s[..j + 1] == [s[0]] + s[1..][..j];
      j + 1
  }

  /** `s.replace(from, to)` with one-character strings: only the first `from` becomes `to`. */
  function ReplaceFirst(s: string, from: char, to: char): (r: string)
    ensures |r| == |s|
    ensures from !in s ==> r == s
    ensures from in s ==> r == s[IndexOf(s, from) := to]
  {
    if s == [] then []
    else if s[0] == from then [to] + s[1..]
    else [s[0]] + ReplaceFirst(s[1..], from, to)
  }

  /** Length of the leading whitespace run of `s`. */
  function LeadingSpaces(s: string): (k: nat)
    ensures k <= |s| && Blank(s[..k])
    ensures k < |s| ==> !IsSpace(s[k])
  {
    if s != [] && IsSpace(s[0]) then
      var k := LeadingSpaces(s[1..]);
      assert s[..k + 1] == [s[0]] + s[1..][..k];
      k + 1
    else 0
  }

  /** Start of the trailing whitespace run of `s`. */
  function TrailingStart(s: string): (k: nat)
    ensures k <= |s| && Blank(s[k..])
    ensures k > 0 ==> !IsSpace(s[k - 1])
  {
    if s != [] && IsSpace(s[|s| - 1]) then
      var k := TrailingStart(s[..|s| - 1]);
      assert s[k..] == s[..|s| - 1][k..] + [s[|s| - 1]];
      k
    else |s|
  }

  /** `s.trim()`: leading and trailing whitespace removed; the result is a slice of `s`. */
  function Trim(s: string): (r: string)
    ensures exists i, j :: 0 <= i <= j <= |s| && r == s[i..j] && Blank(s[..i]) && Blank(s[j..])
    ensures r != [] ==> !IsSpace(r[0]) && !IsSpace(r[|r| - 1])
  {
    var i := LeadingSpaces(s);
    var t := s[i..];
    var k := TrailingStart(t);
    assert t[..k] == s[i..i + k] && s[i + k..] == t[k..];
    t[..k]
  }

  /** A string trims to the empty string exactly when it is all whitespace. */
  lemma TrimEmptyIffBlank(s: string)
    ensures Trim(s) == [] <==> Blank(s)
  {
    var r := Trim(s);
    var i, j :| 0 <= i <= j <= |s| && r == s[i..j] && Blank(s[..i]) && Blank(s[j..]);
    if r == [] {
      forall n | 0 <= n < |s| ensures IsSpace(s[n]) {
        if n < i { assert s[n] == s[..i][n]; } else { assert s[n] == s[j..][n - j]; }
      }
    } else {
      assert !IsSpace(s[i]) by { assert s[i] == r[0]; }
    }
  }
}

=== FILE: price.dfy ===
/** `useNumberToPrice`: normalising a price input to a finite number, and the gate that turns
    every invalid input into the empty string before the `de-DE` formatter is reached.

    JavaScript's `Number(string)` is the caller-supplied `parse`, and the `Intl.NumberFormat`
    formatter is the caller-supplied `format`. */
module Price {
  import opened Wrappers
  import JsText

  /** A JavaScript number: finite, or NaN / ±Infinity. */
  datatype Num = Finite(value: real) | NotFinite

  /** The accepted inputs: `number | string | null | undefined`. */
  datatype PriceInput = Null | Undefined | Number(n: Num) | Text(s: string)

  /** `value.replace(/\s+/g, "").replace(",", ".")`: every whitespace character removed, then the
      first comma, and only that one, made a decimal point. */
  function Normalize(s: string): (r: string)
    ensures |r| == |JsText.RemoveSpaces(s)|
    ensures forall i :: 0 <= i < |r| ==> !JsText.IsSpace(r[i])
    ensures ',' !in JsText.RemoveSpaces(s) ==> r == JsText.RemoveSpaces(s)
    ensures ',' in JsText.RemoveSpaces(s) ==>
      var t := JsText.RemoveSpaces(s);
      var k := JsText.IndexOf(t, ',');
      && r[k] == '.' && r[..k] == t[..k] && r[k + 1..] == t[k + 1..]
  {
    var t := JsText.RemoveSpaces(s);
    var r := JsText.ReplaceFirst(t, ',', '.');
    assert forall i :: 0 <= i < |r| ==> r[i] == t[i] || r[i] == '.';
    r
  }

  /** `normalizeToNumber`: null for null and undefined; a string is normalised and converted; the
      number, converted or given, is kept only when finite. */
  function NormalizeToNumber(v: PriceInput, parse: string -> Num): (r: Option<real>)
    ensures v.Null? || v.Undefined? ==> r == None
    ensures v.Number? ==> (r.Some? <==> v.n.Finite?) && (r.Some? ==> r.value == v.n.value)
    ensures v.Text? ==> (r.Some? <==> parse(Normalize(v.s)).Finite?)
                        && (r.Some? ==> r.value == parse(Normalize(v.s)).value)
  {
    var n := match v
      case Null => NotFinite
      case Undefined => NotFinite
      case Number(n) => n
      case Text(s) => parse(Normalize(s));
    if v.Null? || v.Undefined? || n.NotFinite? then None else Some(n.value)
  }

  /** A number input is never converted: the result does not depend on `parse`. */
  lemma NumberBypassesParsing(n: Num, parse1: string -> Num, parse2: string -> Num)
    ensures NormalizeToNumber(Number(n), parse1) == NormalizeToNumber(Number(n), parse2)
  {
  }

  /** A string input is seen by `parse` only after normalisation: strings that normalise alike
      give the same result. */
  lemma TextDependsOnNormalForm(s1: string, s2: string, parse: string -> Num)
    requires Normalize(s1) == Normalize(s2)
    ensures NormalizeToNumber(Text(s1), parse) == NormalizeToNumber(Text(s2), parse)
  {
  }

  /** `numberToPrice`: the empty string for every input that does not normalise to a finite
      number, which never reaches the formatter; otherwise the formatted number. */
  function NumberToPrice(v: PriceInput, parse: string -> Num, format: real -> string): (r: string)
    ensures NormalizeToNumber(v, parse).None? ==> r == ""
    ensures NormalizeToNumber(v, parse).Some? ==> r == format(NormalizeToNumber(v, parse).value)
  {
    match NormalizeToNumber(v, parse)
    case None => ""
    case Some(n) => format(n)
  }

  /** The empty string never depends on the formatter, and when the formatter never yields the
      empty string, an empty result means exactly an invalid input. */
  lemma EmptyPriceIffInvalid(v: PriceInput, parse: string -> Num, format: real -> string,
                             other: real -> string)
    ensures NormalizeToNumber(v, parse).None? ==> NumberToPrice(v, parse, format) == NumberToPrice(v, parse, other)
    ensures (forall x :: format(x) != "") ==>
      (NumberToPrice(v, parse, format) == "" <==> NormalizeToNumber(v, parse).None?)
  {
  }

  /** JavaScript's `Number("")` is 0, so a string of whitespace alone is not rejected: it
      normalises to the empty string and prices as zero. */
  lemma BlankTextPricesAsZero(s: string, parse: string -> Num, format: real -> string)
    requires JsText.Blank(s) && parse("") == Finite(0.0)
    ensures NumberToPrice(Text(s), parse, format) == format(0.0)
  {
    assert Normalize(s) == "";
  }
}

=== FILE: scroll_animator.dfy ===
/** The bookkeeping of `useScrollAnimator`: option resolution (per call, then the animator's
    global options, then the defaults), the CSS transform of the hidden state, and the map from
    each animated element to its option entries, one per target (the element itself, its
    `::before`, its `::after`).

    Elements are identities (`Element`), the style writes of `prepareHiddenState`, `reveal` and
    `reset` are recorded as `Effect`s, and numbers are rendered to text by a caller-supplied
    function standing for JavaScript's number-to-string conversion. */
module ScrollAnimator {
  import opened Wrappers
  import JsMap

  datatype Origin = Top | Right | Bottom | Left

  datatype Pseudo = Before | After

  /** `rotate` of `AnimationOptions`: each axis optional. */
  datatype RotateOptions = RotateOptions(x: Option<real>, y: Option<real>, z: Option<real>)

  /** `AnimationOptions`: every field optional. For `pseudo`, None stands for both `undefined`
      and an explicit `null`, which `??` treats alike. */
  datatype Options = Options(
    origin: Option<Origin>,
    distance: Option<string>,
    duration: Option<real>,
    delay: Option<real>,
    reset: Option<bool>,
    pseudo: Option<Pseudo>,
    scale: Option<real>,
    rotate: Option<RotateOptions>)

  datatype Rotate = Rotate(x: real, y: real, z: real)

  /** `ResolvedOptions`: every field decided; `pseudo` None is `null`, the element itself. */
  datatype Resolved = Resolved(
    origin: Origin,
    distance: string,
    duration: real,
    delay: real,
    reset: bool,
    pseudo: Option<Pseudo>,
    scale: real,
    rotate: Rotate)

  /** No option given. */
  const NoOptions: Options := Options(None, None, None, None, None, None, None, None)

  /** `defaultOptions`, with `pseudo` defaulting to null. */
  const Defaults: Resolved :=
    Resolved(Bottom, "60px", 2000.0, 300.0, false, None, 1.0, Rotate(0.0, 0.0, 0.0))

  // ---------------------------------------------------------------- option resolution

  /** One rotation axis given in `rotate`, if `rotate` itself is given. */
  function AxisX(r: Option<RotateOptions>): Option<real> { if r.Some? then r.value.x else None }
  function AxisY(r: Option<RotateOptions>): Option<real> { if r.Some? then r.value.y else None }
  function AxisZ(r: Option<RotateOptions>): Option<real> { if r.Some? then r.value.z else None }

  /** One level of the `??` chain: each field of `o` when given, else the field of `fallback`;
      the three rotation axes independently. */
  function Resolve(o: Options, fallback: Resolved): (r: Resolved)
    ensures o == NoOptions ==> r == fallback
    ensures o.origin.Some? ==> r.origin == o.origin.value
    ensures o.pseudo.Some? ==> r.pseudo == o.pseudo
  {
    Resolved(
      o.origin.GetOr(fallback.origin),
      o.distance.GetOr(fallback.distance),
      o.duration.GetOr(fallback.duration),
      o.delay.GetOr(fallback.delay),
      o.reset.GetOr(fallback.reset),
      if o.pseudo.Some? then o.pseudo else fallback.pseudo,
      o.scale.GetOr(fallback.scale),
      Rotate(AxisX(o.rotate).GetOr(fallback.rotate.x),
             AxisY(o.rotate).GetOr(fallback.rotate.y),
             AxisZ(o.rotate).GetOr(fallback.rotate.z)))
  }

  /** Resolving the same options a second time changes nothing: every given field already won. */
  lemma ResolveIdempotent(o: Options, fallback: Resolved)
    ensures Resolve(o, Resolve(o, fallback)) == Resolve(o, fallback)
  {
  }

  /** The first of the per-call value, the global value and the default that is given. */
  function FirstGiven<T>(perCall: Option<T>, global: Option<T>, default: T): T {
    perCall.GetOr(global.GetOr(default))
  }

  /** `resolved` for one `animate` call, against `base` built from the global options: each field
      comes from the call, else from the global options, else from the defaults. A per-call
      `pseudo: null` does not undo a global pseudo target, and the rotation axes are resolved
      one by one. */
  lemma ResolutionOrder(custom: Options, global: Options)
    ensures var r := Resolve(custom, Resolve(global, Defaults));
      && r.origin == FirstGiven(custom.origin, global.origin, Bottom)
      && r.distance == FirstGiven(custom.distance, global.distance, "60px")
      && r.duration == FirstGiven(custom.duration, global.duration, 2000.0)
      && r.delay == FirstGiven(custom.delay, global.delay, 300.0)
      && r.reset == FirstGiven(custom.reset, global.reset, false)
      && r.pseudo == (if custom.pseudo.Some? then custom.pseudo else global.pseudo)
      && r.scale == FirstGiven(custom.scale, global.scale, 1.0)
      && r.rotate == Rotate(FirstGiven(AxisX(custom.rotate), AxisX(global.rotate), 0.0),
                            FirstGiven(AxisY(custom.rotate), AxisY(global.rotate), 0.0),
                            FirstGiven(AxisZ(custom.rotate), AxisZ(global.rotate), 0.0))
    ensures Resolve(NoOptions, Resolve(NoOptions, Defaults)) == Defaults
  {
  }

  // ---------------------------------------------------------------- the hidden transform

  /** The translate part of `getHiddenTransform`, one case per origin. */
  function Translate(origin: Origin, distance: string): (r: string)
    ensures |r| == |distance| + (if origin == Top || origin == Left then 13 else 12)
    ensures r[..9] == "translate" && r[|r| - 1] == ')'
  {
    match origin
    case Top => "translateY(-" + distance + ")"
    case Bottom => "translateY(" + distance + ")"
    case Left => "translateX(-" + distance + ")"
    case Right => "translateX(" + distance + ")"
  }

  /** Vertical origins move along Y, horizontal ones along X; top and left move by minus the
      distance, bottom and right by plus the distance. */
  lemma TranslateShape(origin: Origin, distance: string)
    ensures Translate(origin, distance) ==
      "translate" + [if origin == Top || origin == Bottom then 'Y' else 'X'] + "("
      + (if origin == Top || origin == Left then "-" else "") + distance + ")"
  {
  }

  /** `getHiddenTransform`: the translate part, then `scale(s)`, then the three rotations in the
      order X, Y, Z. `show` renders a number as JavaScript does in a template literal. */
  function HiddenTransform(origin: Origin, distance: string, scale: real, rotate: Rotate,
                           show: real -> string): (r: string)
    ensures |r| > |RotateText(rotate, show)| && r[|r| - |RotateText(rotate, show)|..] == RotateText(rotate, show)
    ensures var t, m := Translate(origin, distance), " scale(" + show(scale) + ") ";
      && |r| == |t| + |m| + |RotateText(rotate, show)|
      && r[..|t|] == t
      && r[|t|..|t| + |m|] == m
  {
    var t, m := Translate(origin, distance), " scale(" + show(scale) + ") ";
    var r := t + m + RotateText(rotate, show);
    assert r[..|t|] == t;
    assert r[|t|..|t| + |m|] == m;
    r
  }

  function RotateText(r: Rotate, show: real -> string): string {
    "rotateX(" + show(r.x) + "deg) rotateY(" + show(r.y) + "deg) rotateZ(" + show(r.z) + "deg)"
  }

  /** The hidden transform tells the origin apart: two origins never give the same string for the
      same distance, scale and rotation. */
  lemma HiddenTransformDeterminesOrigin(o1: Origin, o2: Origin, distance: string, scale: real,
                                        rotate: Rotate, show: real -> string)
    requires HiddenTransform(o1, distance, scale, rotate, show) == HiddenTransform(o2, distance, scale, rotate, show)
    ensures o1 == o2
  {
    var t1, t2 := Translate(o1, distance), Translate(o2, distance);
    var h := HiddenTransform(o1, distance, scale, rotate, show);
    assert |t1| == |t2|;
    assert t1 == h[..|t1|] == t2;
    TranslateInjective(o1, o2, distance);
  }

  /** For one distance, the translate text tells the four origins apart: its length says the
      sign and its tenth character the axis. */
  lemma TranslateInjective(o1: Origin, o2: Origin, distance: string)
    requires Translate(o1, distance) == Translate(o2, distance)
    ensures o1 == o2
  {
    var t := Translate(o1, distance);
    TranslateShape(o1, distance);
    TranslateShape(o2, distance);
    assert (o1 == Top || o1 == Left) == (o2 == Top || o2 == Left) by {
      assert |t| == |distance| + (if o1 == Top || o1 == Left then 13 else 12);
      assert |t| == |distance| + (if o2 == Top || o2 == Left then 13 else 12);
    }
    assert t[9] == (if o1 == Top || o1 == Bottom then 'Y' else 'X');
    assert t[9] == (if o2 == Top || o2 == Bottom then 'Y' else 'X');
  }

  /** The hidden transform of each origin starts with its own translate text. */
  lemma HiddenTransformPrefix(origin: Origin, distance: string, scale: real, rotate: Rotate,
                              show: real -> string)
    ensures var h := HiddenTransform(origin, distance, scale, rotate, show);
      && (origin == Top ==> h[..|distance| + 13] == "translateY(-" + distance + ")")
      && (origin == Bottom ==> h[..|distance| + 12] == "translateY(" + distance + ")")
      && (origin == Left ==> h[..|distance| + 13] == "translateX(-" + distance + ")")
      && (origin == Right ==> h[..|distance| + 12] == "translateX(" + distance + ")")
  {
    TranslateShape(origin, distance);
  }

  // ---------------------------------------------------------------- element keys

  /** The three keys an element's options map can hold. */
  const TargetKeys: set<string> := {"element", "element-before", "element-after"}

  /** `getElementKey`: the options-map key of a pseudo target. */
  function ElementKey(pseudo: Option<Pseudo>): (k: string)
    ensures k in TargetKeys
  {
    match pseudo
    case Some(Before) => "element-before"
    case Some(After) => "element-after"
    case None => "element"
  }

  /** Which target a key names, None for a key `getElementKey` never returns. */
  function KeyTarget(k: string): Option<Option<Pseudo>> {
    if k == "element-before" then Some(Some(Before))
    else if k == "element-after" then Some(Some(After))
    else if k == "element" then Some(None)
    else None
  }

  /** Every target's key names that target back, so the three targets get three different keys. */
  lemma ElementKeyInjective(a: Option<Pseudo>, b: Option<Pseudo>)
    ensures KeyTarget(ElementKey(a)) == Some(a)
    ensures ElementKey(a) == ElementKey(b) ==> a == b
  {
    assert KeyTarget(ElementKey(b)) == Some(b);
  }

  // ---------------------------------------------------------------- the animator state

  /** Identity of a DOM element. */
  type Element = nat

  /** The options entries of one element, keyed by `ElementKey`, in insertion order. */
  type Entries = seq<(string, Resolved)>

  datatype Animator = Animator(
    base: Resolved,                      // `base`, fixed when the animator is created
    hasObserver: bool,                   // the IntersectionObserver exists
    watched: set<Element>,               // elements the observer observes
    options: seq<(Element, Entries)>)    // `elementOptions`, in insertion order

  /** `useScrollAnimator(globalOptions)`: `base` resolved against the defaults, nothing yet
      animated. */
  function Create(global: Options): (a: Animator)
    ensures a.base == Resolve(global, Defaults) && a.options == [] && !a.hasObserver
  {
    Animator(Resolve(global, Defaults), false, {}, [])
  }

  /** The shape every operation keeps: distinct elements, each with a non-empty map of distinct
      keys whose every entry sits under the key of its own pseudo target, and every element with
      options is observed by an existing observer. */
  predicate Valid(a: Animator) {
    && JsMap.Distinct(a.options)
    && (a.options != [] ==> a.hasObserver)
    && forall i :: 0 <= i < |a.options| ==>
         && a.options[i].0 in a.watched
         && ValidEntries(a.options[i].1)
  }

  predicate ValidEntries(m: Entries) {
    && m != []
    && JsMap.Distinct(m)
    && forall j :: 0 <= j < |m| ==> m[j].0 == ElementKey(m[j].1.pseudo)
  }

  /** An element never holds more than three option entries. */
  lemma AtMostThreeEntries(m: Entries)
    requires ValidEntries(m)
    ensures |m| <= 3
  {
    JsMap.DistinctKeySetSize(m);
    var ks := JsMap.KeySet(m);
    forall k | k in ks ensures k in TargetKeys {
      var j :| 0 <= j < |m| && m[j].0 == k;
    }
    assert TargetKeys == ks + (TargetKeys - ks);
    assert |TargetKeys| == 3;
  }

  /** Style writes the observer callback schedules. */
  datatype Effect = Reveal(el: Element, opts: Resolved) | Hide(el: Element, opts: Resolved)

  // ---------------------------------------------------------------- animate

  /** Records `resolved` for one element: its entry for that pseudo target is created or
      overwritten in place, and the element is observed. */
  function Register(a: Animator, el: Element, resolved: Resolved): (r: Animator)
    ensures r.base == a.base && r.hasObserver == a.hasObserver && r.watched == a.watched + {el}
  {
    var entries := JsMap.Get(a.options, el).GetOr([]);
    a.(options := JsMap.Set(a.options, el, JsMap.Set(entries, ElementKey(resolved.pseudo), resolved)),
       watched := a.watched + {el})
  }

  function RegisterAll(a: Animator, els: seq<Element>, resolved: Resolved): (r: Animator)
    ensures r.base == a.base && r.hasObserver == a.hasObserver
    decreases |els|
  {
    if els == [] then a else RegisterAll(Register(a, els[0], resolved), els[1..], resolved)
  }

  /** `animate(selector, customOptions)` given the elements the selector matches: nothing when
      none match; otherwise the observer is created if needed and every match is registered with
      options resolved against `base`. */
  function Animate(a: Animator, matches: seq<Element>, custom: Options): (r: Animator)
    ensures matches == [] ==> r == a
    ensures matches != [] ==> r.hasObserver
    ensures r.base == a.base
  {
    if matches == [] then a
    else RegisterAll(a.(hasObserver := true), matches, Resolve(custom, a.base))
  }

  /** The options map a valid animator holds for an element is itself valid. */
  lemma EntriesOf(a: Animator, el: Element)
    requires Valid(a)
    ensures JsMap.Get(a.options, el).Some? ==> ValidEntries(JsMap.Get(a.options, el).value) && el in a.watched
  {
    if JsMap.Get(a.options, el).Some? {
      JsMap.GetAt(a.options, JsMap.KeyIndex(a.options, el));
    }
  }

  /** Storing options under their own target's key keeps an element's map valid. */
  lemma StoreEntryValid(m: Entries, resolved: Resolved)
    requires m == [] || ValidEntries(m)
    ensures ValidEntries(JsMap.Set(m, ElementKey(resolved.pseudo), resolved))
  {
    var k := ElementKey(resolved.pseudo);
    JsMap.SetGet(m, k, resolved, k);
    var e := JsMap.Set(m, k, resolved);
    assert forall j :: 0 <= j < |m| ==> m[j].0 == ElementKey(m[j].1.pseudo);
    if k in JsMap.Keys(m) {
      assert e == m[JsMap.KeyIndex(m, k) := (k, resolved)];
    } else {
      assert e == m + [(k, resolved)];
    }
    forall j | 0 <= j < |e| ensures e[j].0 == ElementKey(e[j].1.pseudo) {
      if e[j] != (k, resolved) {
        assert e[j] == m[j];
      }
    }
  }

  /** Giving an element a valid map, and observing it, keeps the animator valid. */
  lemma StoreElementValid(a: Animator, el: Element, e: Entries)
    requires Valid(a) && a.hasObserver && ValidEntries(e)
    ensures Valid(a.(options := JsMap.Set(a.options, el, e), watched := a.watched + {el}))
  {
    JsMap.SetGet(a.options, el, e, el);
    var r := a.(options := JsMap.Set(a.options, el, e), watched := a.watched + {el});
    forall i | 0 <= i < |r.options| ensures r.options[i].0 in r.watched && ValidEntries(r.options[i].1) {
      if r.options[i] != (el, e) {
        assert r.options[i] == a.options[i];
      }
    }
  }

  /** Forgetting an element, and unobserving it, keeps the animator valid. */
  lemma ForgetElementValid(a: Animator, el: Element)
    requires Valid(a)
    ensures Valid(a.(options := JsMap.Delete(a.options, el), watched := a.watched - {el}))
  {
    JsMap.DeleteGet(a.options, el, el);
    var r := a.(options := JsMap.Delete(a.options, el), watched := a.watched - {el});
    if el in JsMap.Keys(a.options) {
      JsMap.DeleteShape(a.options, el);
      JsMap.DeleteKeys(a.options, el, el);
    }
    forall i | 0 <= i < |r.options| ensures r.options[i].0 in r.watched && ValidEntries(r.options[i].1) {
      assert r.options[i] in a.options;
      assert JsMap.Keys(r.options)[i] == r.options[i].0;
    }
  }

  /** Registering overwrites exactly the entry of the resolved pseudo target of that element:
      the element's other entries and every other element are untouched. */
  lemma RegisterSpec(a: Animator, el: Element, resolved: Resolved, other: Element, key: string)
    requires Valid(a) && a.hasObserver
    ensures var r := Register(a, el, resolved);
      && Valid(r)
      && el in r.watched
      && JsMap.Get(r.options, el).Some?
      && JsMap.Get(JsMap.Get(r.options, el).value, ElementKey(resolved.pseudo)) == Some(resolved)
      && (key != ElementKey(resolved.pseudo) ==>
           JsMap.Get(JsMap.Get(r.options, el).value, key) == JsMap.Get(JsMap.Get(a.options, el).GetOr([]), key))
      && (other != el ==> JsMap.Get(r.options, other) == JsMap.Get(a.options, other))
  {
    var entries := JsMap.Get(a.options, el).GetOr([]);
    var k := ElementKey(resolved.pseudo);
    var e2 := JsMap.Set(entries, k, resolved);
    EntriesOf(a, el);
    StoreEntryValid(entries, resolved);
    JsMap.SetGet(entries, k, resolved, key);
    JsMap.SetGet(a.options, el, e2, other);
    StoreElementValid(a, el, e2);
  }

  // ---------------------------------------------------------------- the observer callback

  /** The `optionsMap.forEach` of the observer callback for one element, over the live map:
      `i` is the position of the next entry to visit. When the element intersects every entry is
      revealed and the one-shot ones deleted on the spot; `emptied` records that a deletion left
      the map empty. When it does not intersect, the entries with `reset` are hidden again. */
  function Visit(live: Entries, i: nat, el: Element, intersecting: bool): (v: (Entries, seq<Effect>, bool))
    ensures !intersecting ==> v.0 == live && !v.2
    ensures |v.0| <= |live|
    ensures i <= |live| ==> |v.1| <= |live| - i
    decreases |live| - i
  {
    if i >= |live| then (live, [], false)
    else
      var (key, opts) := live[i];
      if intersecting then
        if !opts.reset then
          assert JsMap.Keys(live)[i] == key;
          var after := JsMap.Delete(live, key);
          var rest := Visit(after, i, el, intersecting);
          (rest.0, [Reveal(el, opts)] + rest.1, rest.2 || after == [])
        else
          var rest := Visit(live, i + 1, el, intersecting);
          (rest.0, [Reveal(el, opts)] + rest.1, rest.2)
      else if opts.reset then
        var rest := Visit(live, i + 1, el, intersecting);
        (rest.0, [Hide(el, opts)] + rest.1, rest.2)
      else Visit(live, i + 1, el, intersecting)
  }

  /** The entries with `reset` set, in order. */
  function Persistent(m: Entries): (r: Entries)
    ensures forall j :: 0 <= j < |r| ==> r[j] in m && r[j].1.reset
    ensures JsMap.Distinct(m) ==> JsMap.Distinct(r)
  {
    if m == [] then []
    else
      var rest := Persistent(m[1..]);
      assert forall j :: 0 <= j < |m| - 1 ==> m[1..][j] == m[j + 1];
      if m[0].1.reset then
        assert JsMap.Distinct(m) ==> forall j :: 0 <= j < |rest| ==> rest[j].0 != m[0].0;
        [m[0]] + rest
      else rest
  }

  /** One reveal per entry, in map order. */
  function Reveals(el: Element, m: Entries): (r: seq<Effect>)
    ensures |r| == |m|
  {
    if m == [] then [] else [Reveal(el, m[0].1)] + Reveals(el, m[1..])
  }

  /** One hide per entry with `reset`, in map order. */
  function Hides(el: Element, m: Entries): seq<Effect> {
    if m == [] then [] else (if m[0].1.reset then [Hide(el, m[0].1)] else []) + Hides(el, m[1..])
  }

  /** Deleting the key of the entry at position `i` removes exactly that entry. */
  lemma DeleteAt(live: Entries, i: nat)
    requires JsMap.Distinct(live) && i < |live|
    ensures JsMap.Delete(live, live[i].0) == live[..i] + live[i + 1..]
    ensures JsMap.Distinct(live[..i] + live[i + 1..])
  {
    JsMap.GetAt(live, i);
    JsMap.DeleteGet(live, live[i].0, live[i].0);
  }

  /** What visiting an intersecting element's live map from position `i` does, where the
      entries before `i` are the ones kept: it ends with its `reset` entries only and reveals
      every entry from `i` on; `emptied` holds exactly when a deletion left nothing. */
  predicate ShownOutcome(live: Entries, i: nat, el: Element)
    requires i <= |live|
  {
    var v := Visit(live, i, el, true);
    && v.0 == live[..i] + Persistent(live[i..])
    && v.1 == Reveals(el, live[i..])
    && (v.2 <==> v.0 == [] && i < |live|)
  }

  /** Deleting a one-shot entry at `i` and visiting the rest from `i`. */
  lemma ShownDropStep(live: Entries, i: nat, el: Element)
    requires JsMap.Distinct(live) && i < |live| && !live[i].1.reset
    requires ShownOutcome(live[..i] + live[i + 1..], i, el)
    ensures ShownOutcome(live, i, el)
  {
    DeleteAt(live, i);
    var after := live[..i] + live[i + 1..];
    assert after[..i] == live[..i] && after[i..] == live[i + 1..];
    assert live[i..][0] == live[i] && live[i..][1..] == live[i + 1..];
    assert Persistent(live[i..]) == Persistent(live[i + 1..]);
    assert Reveals(el, live[i..]) == [Reveal(el, live[i].1)] + Reveals(el, live[i + 1..]);
    var rest := Visit(after, i, el, true);
    assert Visit(live, i, el, true) == (rest.0, [Reveal(el, live[i].1)] + rest.1, rest.2 || after == []);
  }

  /** Keeping a `reset` entry at `i` and visiting the rest from `i + 1`. */
  lemma ShownKeepStep(live: Entries, i: nat, el: Element)
    requires i < |live| && live[i].1.reset
    requires ShownOutcome(live, i + 1, el)
    ensures ShownOutcome(live, i, el)
  {
    assert live[i..][0] == live[i] && live[i..][1..] == live[i + 1..];
    assert Persistent(live[i..]) == [live[i]] + Persistent(live[i + 1..]);
    assert Reveals(el, live[i..]) == [Reveal(el, live[i].1)] + Reveals(el, live[i + 1..]);
    var rest := Visit(live, i + 1, el, true);
    assert Visit(live, i, el, true) == (rest.0, [Reveal(el, live[i].1)] + rest.1, rest.2);
    assert live[..i + 1] == live[..i] + [live[i]];
    assert live[..i] + ([live[i]] + Persistent(live[i + 1..])) == live[..i + 1] + Persistent(live[i + 1..]);
  }

  /** Visiting an intersecting element's live map from any position has `ShownOutcome`. */
  lemma {:induction false} VisitShown(live: Entries, i: nat, el: Element)
    requires JsMap.Distinct(live) && i <= |live|
    ensures ShownOutcome(live, i, el)
    decreases |live| - i
  {
    if i < |live| {
      if !live[i].1.reset {
        DeleteAt(live, i);
        VisitShown(live[..i] + live[i + 1..], i, el);
        ShownDropStep(live, i, el);
      } else {
        VisitShown(live, i + 1, el);
        ShownKeepStep(live, i, el);
      }
    } else {
      assert live[i..] == [];
    }
  }

  /** Visiting an element that left the viewport keeps its map, hides its `reset` entries from
      position `i` on, and never empties it. */
  lemma {:induction false} VisitAway(live: Entries, i: nat, el: Element)
    requires i <= |live|
    ensures Visit(live, i, el, false) == (live, Hides(el, live[i..]), false)
    decreases |live| - i
  {
    if i < |live| {
      assert live[i..][0] == live[i] && live[i..][1..] == live[i + 1..];
      assert Hides(el, live[i..]) ==
        (if live[i].1.reset then [Hide(el, live[i].1)] else []) + Hides(el, live[i + 1..]);
      VisitAway(live, i + 1, el);
      assert Visit(live, i + 1, el, false) == (live, Hides(el, live[i + 1..]), false);
      if live[i].1.reset {
        assert Visit(live, i, el, false).1 == [Hide(el, live[i].1)] + Hides(el, live[i + 1..]);
      } else {
        assert Visit(live, i, el, false) == Visit(live, i + 1, el, false);
        assert [] + Hides(el, live[i + 1..]) == Hides(el, live[i + 1..]);
      }
    } else {
      assert live[i..] == [];
    }
  }

  /** The callback for one entry of a batch: an element without options is ignored. Otherwise
      the element's map is visited; if that emptied it, the element is unobserved and forgotten,
      else it keeps its (possibly shrunk) map in place. */
  function OnEntry(a: Animator, el: Element, intersecting: bool): (r: (Animator, seq<Effect>))
    ensures r.0.base == a.base && r.0.hasObserver == a.hasObserver && r.0.watched <= a.watched
    ensures JsMap.Get(a.options, el).Some? ==> |r.1| <= |JsMap.Get(a.options, el).value|
  {
    match JsMap.Get(a.options, el)
    case None => (a, [])
    case Some(entries) =>
      var v := Visit(entries, 0, el, intersecting);
      if v.2 then (a.(options := JsMap.Delete(a.options, el), watched := a.watched - {el}), v.1)
      else (a.(options := JsMap.Set(a.options, el, v.0)), v.1)
  }

  /** One entry keeps the animator valid and never touches another element. */
  lemma OnEntryFrame(a: Animator, el: Element, intersecting: bool, other: Element)
    requires Valid(a)
    ensures Valid(OnEntry(a, el, intersecting).0)
    ensures other != el ==> JsMap.Get(OnEntry(a, el, intersecting).0.options, other) == JsMap.Get(a.options, other)
    ensures JsMap.Get(a.options, el).None? ==> OnEntry(a, el, intersecting) == (a, [])
  {
    match JsMap.Get(a.options, el)
    case None =>
    case Some(entries) =>
      EntriesOf(a, el);
      assert a.watched + {el} == a.watched;
      var v := Visit(entries, 0, el, intersecting);
      assert entries[..0] == [] && entries[0..] == entries;
      if intersecting { VisitShown(entries, 0, el); } else { VisitAway(entries, 0, el); }
      if v.2 {
        ForgetElementValid(a, el);
        JsMap.DeleteGet(a.options, el, other);
      } else {
        assert v.0 != [] && JsMap.Distinct(v.0);
        assert ValidEntries(v.0) by {
          assert forall j :: 0 <= j < |v.0| ==> v.0[j] in entries;
        }
        StoreElementValid(a, el, v.0);
        JsMap.SetGet(a.options, el, v.0, other);
      }
  }

  /** An element that left the viewport hides its `reset` targets and changes nothing. */
  lemma OnEntryAway(a: Animator, el: Element, entries: Entries)
    requires Valid(a) && JsMap.Get(a.options, el) == Some(entries)
    ensures OnEntry(a, el, false) == (a, Hides(el, entries))
  {
    var n := JsMap.KeyIndex(a.options, el);
    VisitAway(entries, 0, el);
    assert entries[0..] == entries;
    assert a.options[n := (el, entries)] == a.options;
  }

  /** An element coming into view reveals every target and keeps only the `reset` ones; once
      none is left it is forgotten and unobserved. */
  lemma OnEntryShown(a: Animator, el: Element, entries: Entries)
    requires Valid(a) && JsMap.Get(a.options, el) == Some(entries)
    ensures var (r, effects) := OnEntry(a, el, true);
      && effects == Reveals(el, entries)
      && JsMap.Get(r.options, el) == (if Persistent(entries) == [] then None else Some(Persistent(entries)))
      && (el in r.watched <==> Persistent(entries) != [])
  {
    EntriesOf(a, el);
    VisitShown(entries, 0, el);
    assert entries[..0] == [] && entries[0..] == entries;
    var v := Visit(entries, 0, el, true);
    if v.2 {
      JsMap.DeleteGet(a.options, el, el);
    } else {
      assert v.0 != [];
      JsMap.SetGet(a.options, el, v.0, el);
      assert OnEntry(a, el, true).0.options == JsMap.Set(a.options, el, v.0);
      assert v.0 == Persistent(entries);
      assert JsMap.Get(OnEntry(a, el, true).0.options, el) == Some(v.0);
      assert el in OnEntry(a, el, true).0.watched;
    }
  }

  /** A batch of entries, in order. */
  function OnEntries(a: Animator, batch: seq<(Element, bool)>): (r: (Animator, seq<Effect>))
    ensures r.0.base == a.base && r.0.hasObserver == a.hasObserver && r.0.watched <= a.watched
    decreases |batch|
  {
    if batch == [] then (a, [])
    else
      var first := OnEntry(a, batch[0].0, batch[0].1);
      var rest := OnEntries(first.0, batch[1..]);
      (rest.0, first.1 + rest.1)
  }

  /** The `onUnmounted` hook: observer disconnected and dropped, all options forgotten. */
  function Unmount(a: Animator): (r: Animator)
    ensures Valid(r) && r.options == [] && !r.hasObserver && r.watched == {}
    ensures r.base == a.base
  {
    a.(hasObserver := false, watched := {}, options := [])
  }

  /** Registering a list of elements: each of them ends observed with `resolved` under its
      target's key; an element not in the list keeps its options and its observation. */
  lemma {:induction false} RegisterAllSpec(a: Animator, els: seq<Element>, resolved: Resolved, e: Element)
    requires Valid(a) && a.hasObserver
    ensures var r := RegisterAll(a, els, resolved);
      && Valid(r)
      && (e in r.watched <==> e in a.watched || e in els)
      && (e in els ==> JsMap.Get(r.options, e).Some?
                       && JsMap.Get(JsMap.Get(r.options, e).value, ElementKey(resolved.pseudo)) == Some(resolved))
      && (e !in els ==> JsMap.Get(r.options, e) == JsMap.Get(a.options, e))
    decreases |els|
  {
    if els != [] {
      var a1 := Register(a, els[0], resolved);
      RegisterSpec(a, els[0], resolved, e, "");
      RegisterSpec(a1, e, resolved, e, "");
      RegisterAllSpec(a1, els[1..], resolved, e);
      assert e in els <==> e == els[0] || e in els[1..];
    }
  }

  /** `animate` over the matched elements: every match ends observed with the call's resolved
      options under its target's key, and every other element is left as it was. */
  lemma AnimateSpec(a: Animator, matches: seq<Element>, custom: Options, e: Element)
    requires Valid(a)
    ensures var r := Animate(a, matches, custom);
      && Valid(r)
      && (e in matches ==>
            && e in r.watched
            && JsMap.Get(r.options, e).Some?
            && JsMap.Get(JsMap.Get(r.options, e).value, ElementKey(Resolve(custom, a.base).pseudo))
               == Some(Resolve(custom, a.base)))
      && (e !in matches ==> JsMap.Get(r.options, e) == JsMap.Get(a.options, e)
                            && (e in r.watched <==> e in a.watched))
  {
    if matches != [] {
      RegisterAllSpec(a.(hasObserver := true), matches, Resolve(custom, a.base), e);
    }
  }

  /** Every operation keeps the animator valid, so no element ever holds more than three
      entries. */
  lemma {:induction false} ValidPreserved(a: Animator, matches: seq<Element>, custom: Options,
                                          batch: seq<(Element, bool)>)
    requires Valid(a)
    ensures Valid(Animate(a, matches, custom))
    ensures Valid(OnEntries(a, batch).0)
    decreases |batch|
  {
    if matches != [] {
      AnimateSpec(a, matches, custom, 0);
    }
    if batch != [] {
      OnEntryFrame(a, batch[0].0, batch[0].1, batch[0].0);
      ValidPreserved(OnEntry(a, batch[0].0, batch[0].1).0, matches, custom, batch[1..]);
    }
  }
}

=== FILE: wrappers.dfy ===
/** Option datatype shared by every module of the model. */
module Wrappers {

  /** A value that may be absent: JavaScript's `null` / `undefined` results. */
  datatype Option<+T> = None | Some(value: T) {

    /** Returns the value inside Some, or `default` for None (JavaScript's `??`). */
    function GetOr(default: T): T {
      match this
      case Some(v) => v
      case None => default
    }
  }
}
